=== FILE: README.md ===
# Vocabulary CSV to canonical entries, in Dafny

This project models the normalisation pipeline of the vocabulary converter
`scripts/vocabs_csv2jsonl/vocabs_csv2jsonl.py`. The converter turns controlled-vocabulary
tables (access rights, file types, licenses, machine-readable formats, media
types, non-proprietary formats) into canonical records:

1. The lines of a CSV source are filtered. Comment lines (a `#` after
   leading whitespace) and blank lines are dropped (`LineFilter`).
2. The remaining lines become rows. The first line is a header unless it
   contains `://`. Without a header, the rows are keyed `col0`, `col1`, …
   and padded with `""` to the longest line (`CsvRows`).
3. Each row is normalised into a URI/label entry or a licenses entry, or it
   is rejected (`Normalize`):
   - keys are lower-cased and trimmed, and values are trimmed;
   - each field takes the first non-empty value among its candidate columns;
   - a missing label is derived from the URI's last segment.
4. The accepted entries are collected in row order under a metadata record
   whose `count` is the number of entries (`Convert`).

Python's string and dict behaviour is written out where the pipeline relies
on it:

- `Text` has `str.isspace`, `strip`, `lstrip`, `rstrip(chars)`,
  `split(c)[-1]`, `replace`, `lower`, `in` and the decimal rendering of
  `f"col{i}"`.
- `Dict` has insertion-ordered dicts: assigning to a key that is already
  present keeps its place and takes the new value, so of two keys that
  normalise alike, the later value wins.

The model is split into these files:

- `wrappers.dfy`: `Option`.
- `text.dfy`: Python string operations.
- `dict.dfy`: ordered dicts.
- `line_filter.dfy`: the comment and blank line filter.
- `csv_rows.dfy`: `_parse_csv_lines`.
- `normalize.dfy`: `slug_label_from_uri` and `normalize_vocab_entry`.
- `convert.dfy`: the entry collection of `convert_vocab`.

The core has three distinct loops. The line filter loop appears twice in
the source, once for files (lines 36-41) and once for URLs (lines 52-56),
and is modelled once:

- the line filter loop (`LineFilter.ReadLines`);
- the padding loop (`CsvRows.PadRows`, inside `CsvRows.ParseLines`);
- the entry loop (`Convert.NormalizeRows`, inside `Convert.ConvertVocab`).

Each loop is a method proved equal to the function that specifies it. The
properties are proved about those functions.

Two consequences of the code are worth stating:

- Padding. `csv.DictReader` fills the fields a short line does not reach
  with `None` (its `restval` default); only the no-header path pads with
  `""`. Normalisation reads `None` as `""` (`Normalize.NormValue`), so the
  entries are the same either way.
- Labels. A URI/label entry's label can be empty: the URI `/` derives the
  label `""` (`Normalize.SlugOfSlash`). Only licenses entries are
  guaranteed a non-empty label.

## Model

| member | source | states |
|---|---|---|
| Text.SkipSpace | scripts/vocabs_csv2jsonl/vocabs_csv2jsonl.py:39 | the first non-whitespace position at or after `i`: everything skipped is whitespace, and what it stops at is not |
| Text.IsSpace | scripts/vocabs_csv2jsonl/vocabs_csv2jsonl.py:39 | the code points Python's `str.isspace()` accepts: tab to carriage return, the file, group, record and unit separators, space, U+0085, U+00A0, U+1680, U+2000 to U+200A, U+2028, U+2029, U+202F, U+205F and U+3000 |
| Text.TrimEnd | scripts/vocabs_csv2jsonl/vocabs_csv2jsonl.py:39 | the end of the text once trailing whitespace is dropped: everything dropped is whitespace, and the last character kept is not |
| Text.LStrip | scripts/vocabs_csv2jsonl/vocabs_csv2jsonl.py:39 | `lstrip()` is the suffix left after a run of leading whitespace; its first character, if any, is not whitespace |
| Text.StripShape | scripts/vocabs_csv2jsonl/vocabs_csv2jsonl.py:39 | `strip()` is the slice between a leading and a trailing run of whitespace; it is empty exactly when the text is all whitespace; otherwise it starts and ends with non-whitespace |
| Text.Strip | scripts/vocabs_csv2jsonl/vocabs_csv2jsonl.py:39 | `strip()`; its contract is stated by `Text.StripShape` |
| Text.StripUnchanged | scripts/vocabs_csv2jsonl/vocabs_csv2jsonl.py:31 | text with no whitespace at either end is its own `strip()` |
| Text.StripFree | scripts/vocabs_csv2jsonl/vocabs_csv2jsonl.py:33 | stripping adds no character: text free of a set of characters stays free of it |
| Text.RStripAny | scripts/vocabs_csv2jsonl/vocabs_csv2jsonl.py:31 | `rstrip("/#")` is a prefix; everything dropped is in the set, and the last character kept is not |
| Text.TrimEndAny | scripts/vocabs_csv2jsonl/vocabs_csv2jsonl.py:31 | where `rstrip(chars)` stops: the characters after it are all in the set, and the one before it is not |
| Text.TrimEndAnyIs | scripts/vocabs_csv2jsonl/vocabs_csv2jsonl.py:31 | that stopping point is unique: any position with that property is where `rstrip(chars)` stops |
| Text.RStripAnyTail | scripts/vocabs_csv2jsonl/vocabs_csv2jsonl.py:31 | `rstrip(chars)` removes exactly a tail made of the set from text whose body does not end in the set |
| Text.AfterLastShape | scripts/vocabs_csv2jsonl/vocabs_csv2jsonl.py:32 | `split(c)[-1]` is the longest suffix without `c`; when shorter than the text, it follows a `c` |
| Text.AfterLast | scripts/vocabs_csv2jsonl/vocabs_csv2jsonl.py:32 | `split(c)[-1]`; its contract is stated by `Text.AfterLastShape` |
| Text.AfterLastFree | scripts/vocabs_csv2jsonl/vocabs_csv2jsonl.py:32 | the last segment keeps any absence of characters the whole text has |
| Text.SegmentStart | scripts/vocabs_csv2jsonl/vocabs_csv2jsonl.py:32 | where the last run without `c` begins: nothing from there on is `c`, and the character before it is |
| Text.SegmentStartIs | scripts/vocabs_csv2jsonl/vocabs_csv2jsonl.py:32 | that start is unique: any position with that property is where the last segment begins |
| Text.AfterLastSeparator | scripts/vocabs_csv2jsonl/vocabs_csv2jsonl.py:32 | after `p + c + w`, with no `c` in `w`, the last segment is `w` |
| Text.AfterLastAppend | scripts/vocabs_csv2jsonl/vocabs_csv2jsonl.py:32 | appending text without `c` extends the last segment by that text |
| Text.ReplaceChar | scripts/vocabs_csv2jsonl/vocabs_csv2jsonl.py:33 | `replace(a, b)` for single characters: same length, every `a` becomes `b`, everything else is unchanged |
| Text.Lower | scripts/vocabs_csv2jsonl/vocabs_csv2jsonl.py:81 | `lower()`: same length, character by character (ASCII letters only) |
| Text.LowerUnchanged | scripts/vocabs_csv2jsonl/vocabs_csv2jsonl.py:81 | a key without upper-case ASCII letters, such as `uri`, is unchanged by `lower()` |
| Text.ContainsUnderStrip | scripts/vocabs_csv2jsonl/vocabs_csv2jsonl.py:62-63 | stripping does not change whether text contains a non-empty substring without whitespace, such as `://` |
| Text.Contains | scripts/vocabs_csv2jsonl/vocabs_csv2jsonl.py:63 | the `in` test on text; see `Text.ContainsUnderStrip` and `Text.NotContainsWithout` |
| Text.NotContainsWithout | scripts/vocabs_csv2jsonl/vocabs_csv2jsonl.py:63 | text lacking the first character of a substring does not contain it, so a header without `:` holds no `://` |
| Text.ContainsInTrimmedSlice | scripts/vocabs_csv2jsonl/vocabs_csv2jsonl.py:62-63 | an occurrence of such a substring lies inside any slice that only whitespace surrounds |
| Text.OccursInSlice | scripts/vocabs_csv2jsonl/vocabs_csv2jsonl.py:63 | an occurrence at `i` in a slice starting at `k` is an occurrence at `k + i` in the text, and back |
| Text.OccursInsideStrip | scripts/vocabs_csv2jsonl/vocabs_csv2jsonl.py:63 | an occurrence of a substring without whitespace cannot overlap the whitespace cut off by `strip()` |
| Text.Split | scripts/vocabs_csv2jsonl/vocabs_csv2jsonl.py:65-68 | splitting a line on commas gives at least one cell, and no cell contains a comma |
| Text.StartsWith | scripts/vocabs_csv2jsonl/vocabs_csv2jsonl.py:39 | `startswith` for one character: the text is non-empty and begins with it |
| Text.JoinSplit | scripts/vocabs_csv2jsonl/vocabs_csv2jsonl.py:65-68 | joining the cells with commas gives back the line |
| Text.SplitJoin | scripts/vocabs_csv2jsonl/vocabs_csv2jsonl.py:65-68 | splitting comma-joined cells that have no commas gives back the cells |
| Text.SplitFree | scripts/vocabs_csv2jsonl/vocabs_csv2jsonl.py:65-68 | a line without commas is one cell |
| Text.SplitPrefix | scripts/vocabs_csv2jsonl/vocabs_csv2jsonl.py:65-68 | the first cell is the text before the first comma, and the rest is the split of the text after it |
| Text.DigitChar | scripts/vocabs_csv2jsonl/vocabs_csv2jsonl.py:72 | the decimal digit `d` is the character `"0123456789"[d]` |
| Text.NatToString | scripts/vocabs_csv2jsonl/vocabs_csv2jsonl.py:72 | the decimal rendering of `i` is non-empty, one digit exactly when `i < 10`, and ends in the digit `i % 10` |
| Text.NatToStringInjective | scripts/vocabs_csv2jsonl/vocabs_csv2jsonl.py:72 | different numbers render differently |
| Dict.Keys | scripts/vocabs_csv2jsonl/vocabs_csv2jsonl.py:76 | the keys of a dict, in order |
| Dict.IndexOf | scripts/vocabs_csv2jsonl/vocabs_csv2jsonl.py:76 | the first position holding a key |
| Dict.Get | scripts/vocabs_csv2jsonl/vocabs_csv2jsonl.py:82-84 | `dict.get`: absent exactly when no pair has the key; otherwise the value of a pair with that key |
| Dict.Put | scripts/vocabs_csv2jsonl/vocabs_csv2jsonl.py:81 | assignment keeps the key order when the key is present, and appends the pair when it is not |
| Dict.PutGet | scripts/vocabs_csv2jsonl/vocabs_csv2jsonl.py:81 | after assigning `k`, looking up `k` gives the new value, and every other key is unchanged |
| Dict.PutUnique | scripts/vocabs_csv2jsonl/vocabs_csv2jsonl.py:81 | assignment keeps the keys distinct |
| Dict.GetUnique | scripts/vocabs_csv2jsonl/vocabs_csv2jsonl.py:82-84 | in a dict, each pair's key finds that pair's value |
| Dict.FromPairs | scripts/vocabs_csv2jsonl/vocabs_csv2jsonl.py:76 | `dict(pairs)` has distinct keys |
| Dict.FromPairsGet | scripts/vocabs_csv2jsonl/vocabs_csv2jsonl.py:81 | in `dict(pairs)` a key holds the value of its last pair (later wins) |
| Dict.FromPairsUnique | scripts/vocabs_csv2jsonl/vocabs_csv2jsonl.py:76 | pairs with distinct keys become a dict holding exactly those pairs, in order |
| Dict.FromPairsHasKey | scripts/vocabs_csv2jsonl/vocabs_csv2jsonl.py:81 | the keys of `dict(pairs)` are exactly the keys of the pairs |
| Dict.LastValueSome | scripts/vocabs_csv2jsonl/vocabs_csv2jsonl.py:81 | a key has a last value exactly when some pair has that key |
| LineFilter.RetainedIff | scripts/vocabs_csv2jsonl/vocabs_csv2jsonl.py:39 | a line is kept exactly when it has a non-whitespace character and the first one is not `#` |
| LineFilter.IsRetained | scripts/vocabs_csv2jsonl/vocabs_csv2jsonl.py:39 | the keep test of the line filter; characterised by `LineFilter.RetainedIff` |
| LineFilter.RetainedFirst | scripts/vocabs_csv2jsonl/vocabs_csv2jsonl.py:54 | a line whose first character is neither whitespace nor `#` is kept |
| LineFilter.LStripFindsFirst | scripts/vocabs_csv2jsonl/vocabs_csv2jsonl.py:39 | `lstrip()` starts at the line's first non-whitespace character |
| LineFilter.FirstNonSpaceUnique | scripts/vocabs_csv2jsonl/vocabs_csv2jsonl.py:39 | a line has at most one first non-whitespace position |
| LineFilter.FilterLines | scripts/vocabs_csv2jsonl/vocabs_csv2jsonl.py:36-41 | no lines give no lines; no line is added; every line kept is retained |
| LineFilter.FilterLinesAppend | scripts/vocabs_csv2jsonl/vocabs_csv2jsonl.py:36-41 | filtering goes line by line and keeps the order: filtering `a + b` gives the filtered `a` followed by the filtered `b` |
| LineFilter.FilterLinesSkipsDropped | scripts/vocabs_csv2jsonl/vocabs_csv2jsonl.py:39-40 | a comment or blank line anywhere changes nothing |
| LineFilter.FilterLinesMembers | scripts/vocabs_csv2jsonl/vocabs_csv2jsonl.py:36-41 | a line is in the output exactly when it is in the input and retained |
| LineFilter.FilterLinesKeepsRetained | scripts/vocabs_csv2jsonl/vocabs_csv2jsonl.py:36-41 | lines that are all retained pass through unchanged |
| LineFilter.FilterLinesIdempotent | scripts/vocabs_csv2jsonl/vocabs_csv2jsonl.py:36-41 | filtering twice is filtering once |
| LineFilter.FilterLinesStep | scripts/vocabs_csv2jsonl/vocabs_csv2jsonl.py:53-56 | one more line read appends that line to the kept lines exactly when it is retained |
| LineFilter.ReadLines | scripts/vocabs_csv2jsonl/vocabs_csv2jsonl.py:52-56 | the filter loop appends exactly the lines `FilterLines` keeps |
| CsvRows.StripLineEnd | scripts/vocabs_csv2jsonl/vocabs_csv2jsonl.py:38 | the line without its terminator: a prefix that drops exactly a final `\r\n`, else one final `\n` or `\r`, and leaves a line without one unchanged |
| CsvRows.Cells | scripts/vocabs_csv2jsonl/vocabs_csv2jsonl.py:65-68 | a CSV line has at least one cell, and no cell holds a comma |
| CsvRows.CellsOfPair | scripts/vocabs_csv2jsonl/vocabs_csv2jsonl.py:65-68 | a line `a,b` with comma-free cells and no terminator splits into exactly `[a, b]` |
| CsvRows.Zip | scripts/vocabs_csv2jsonl/vocabs_csv2jsonl.py:76 | `zip` pairs elements up to the shorter sequence |
| CsvRows.Somes | scripts/vocabs_csv2jsonl/vocabs_csv2jsonl.py:76 | every cell is present |
| CsvRows.ReaderPairs | scripts/vocabs_csv2jsonl/vocabs_csv2jsonl.py:65-66 | `DictReader` assigns each field its cell, or `None` past the end of a short line |
| CsvRows.ReaderRow | scripts/vocabs_csv2jsonl/vocabs_csv2jsonl.py:65-66 | one `DictReader` row; see `CsvRows.ReaderRowKeys`, `CsvRows.ReaderRowDistinct` and `CsvRows.ReaderRowFull` |
| CsvRows.HeaderRows | scripts/vocabs_csv2jsonl/vocabs_csv2jsonl.py:65-66 | one row per data line |
| CsvRows.ColNameInjective | scripts/vocabs_csv2jsonl/vocabs_csv2jsonl.py:72 | the synthetic names `col0`, `col1`, … are distinct |
| CsvRows.ColName | scripts/vocabs_csv2jsonl/vocabs_csv2jsonl.py:72 | `f"col{i}"`; see `CsvRows.ColNameInjective` and `CsvRows.FirstColNames` |
| CsvRows.FirstColNames | scripts/vocabs_csv2jsonl/vocabs_csv2jsonl.py:72 | the first three column names are exactly `col0`, `col1` and `col2`, the names the normaliser looks up |
| CsvRows.ColNames | scripts/vocabs_csv2jsonl/vocabs_csv2jsonl.py:72 | the headers are `col0` … `col(n-1)`, in order |
| CsvRows.MaxLen | scripts/vocabs_csv2jsonl/vocabs_csv2jsonl.py:71 | `max_len` bounds every row and is reached by one; it is 0 for no rows |
| CsvRows.Pad | scripts/vocabs_csv2jsonl/vocabs_csv2jsonl.py:75 | the padded row has `max_len` cells: the row's own cells, then `""` |
| CsvRows.PaddedRowIsDict | scripts/vocabs_csv2jsonl/vocabs_csv2jsonl.py:76 | `dict(zip(headers, r_padded))` keeps every pair, in order |
| CsvRows.PaddedRow | scripts/vocabs_csv2jsonl/vocabs_csv2jsonl.py:75-76 | `dict(zip(headers, r_padded))`; see `CsvRows.PaddedRowIsDict` and `CsvRows.PaddedRowShape` |
| CsvRows.PaddedRowUnique | scripts/vocabs_csv2jsonl/vocabs_csv2jsonl.py:76 | a padded row has distinct keys |
| CsvRows.PaddedRowShape | scripts/vocabs_csv2jsonl/vocabs_csv2jsonl.py:74-76 | a padded row has exactly the keys `col0` … `col(n-1)`; column `c` holds cell `c`, or `""` past the line's end |
| CsvRows.LineCells | scripts/vocabs_csv2jsonl/vocabs_csv2jsonl.py:68 | the cells of each line, line by line |
| CsvRows.NoHeaderRows | scripts/vocabs_csv2jsonl/vocabs_csv2jsonl.py:68-77 | without a header there is one row per line |
| CsvRows.ParseCsvLines | scripts/vocabs_csv2jsonl/vocabs_csv2jsonl.py:60-61 | no lines give no rows |
| CsvRows.ParseDecision | scripts/vocabs_csv2jsonl/vocabs_csv2jsonl.py:59-77 | no lines give `[]`; otherwise the first line is a header exactly when it does not contain `://` (stripped or not), and the rows are the `DictReader` rows or the padded rows accordingly |
| CsvRows.HasHeader | scripts/vocabs_csv2jsonl/vocabs_csv2jsonl.py:62-63 | whether the first line is a header; see `CsvRows.ParseDecision` |
| CsvRows.NoHeaderRowShape | scripts/vocabs_csv2jsonl/vocabs_csv2jsonl.py:68-77 | without a header: one row per line; each row has exactly the keys `col0` … `col(max_len-1)`; each holds its line's cells in order, then `""` |
| CsvRows.SingleCell | scripts/vocabs_csv2jsonl/vocabs_csv2jsonl.py:65-68 | a comma-free line without a terminator is exactly one cell |
| CsvRows.SingleColumnRows | scripts/vocabs_csv2jsonl/vocabs_csv2jsonl.py:68-77 | lines of one cell each parse, without a header, into rows holding only `col0`, set to the line |
| CsvRows.ReaderRowKeys | scripts/vocabs_csv2jsonl/vocabs_csv2jsonl.py:65-66 | a `DictReader` row's keys are exactly the field names; each holds the value of its last position in the header |
| CsvRows.ReaderRowDistinct | scripts/vocabs_csv2jsonl/vocabs_csv2jsonl.py:65-66 | with distinct field names, a row's keys are the field names in order; each holds its cell, or `None` past the line's end |
| CsvRows.ReaderRowFull | scripts/vocabs_csv2jsonl/vocabs_csv2jsonl.py:65-66 | a line as long as a header of distinct names gives the row pairing each name with its cell, in header order |
| CsvRows.HeaderOverOneLine | scripts/vocabs_csv2jsonl/vocabs_csv2jsonl.py:59-66 | a header of two distinct names over one line of two cells parses to the one row pairing the names with the cells |
| CsvRows.HeaderRowsShape | scripts/vocabs_csv2jsonl/vocabs_csv2jsonl.py:64-66 | with a header: one row per later line, built from the header's names and that line's cells |
| CsvRows.PadRows | scripts/vocabs_csv2jsonl/vocabs_csv2jsonl.py:73-77 | the padding loop yields, for each row in order, its padded and keyed row |
| CsvRows.ParseLines | scripts/vocabs_csv2jsonl/vocabs_csv2jsonl.py:59-77 | `_parse_csv_lines` as written computes `ParseCsvLines` |
| Normalize.LastSegment | scripts/vocabs_csv2jsonl/vocabs_csv2jsonl.py:31-32 | the last segment contains no `/` and no `#` |
| Normalize.SlugLabelFromUri | scripts/vocabs_csv2jsonl/vocabs_csv2jsonl.py:29-30 | the empty URI gives `""` |
| Normalize.SpacedFree | scripts/vocabs_csv2jsonl/vocabs_csv2jsonl.py:33 | once `_` and `-` read as spaces, a segment without `/` and `#` holds none of `/`, `#`, `_`, `-` |
| Normalize.Spaced | scripts/vocabs_csv2jsonl/vocabs_csv2jsonl.py:33 | `replace("_", " ").replace("-", " ")`; see `Normalize.SpacedFree` and `Normalize.SpacedExample` |
| Normalize.SlugLabelFree | scripts/vocabs_csv2jsonl/vocabs_csv2jsonl.py:28-33 | a derived label, for any URI, holds no `/`, `#`, `_` or `-` |
| Normalize.AfterSeparators | scripts/vocabs_csv2jsonl/vocabs_csv2jsonl.py:32 | after a last `/` or `#`, the last segment is the text that follows it |
| Normalize.SlugOfLastSegment | scripts/vocabs_csv2jsonl/vocabs_csv2jsonl.py:28-33 | the label of a URI whose last segment is `w` (before trailing `/` and `#`) is `w` with `_` and `-` as spaces, trimmed |
| Normalize.SlugExample | scripts/vocabs_csv2jsonl/vocabs_csv2jsonl.py:28-33 | `http://example.org/some_thing/` gives `some thing` |
| Normalize.SlugOfSpacedSegment | scripts/vocabs_csv2jsonl/vocabs_csv2jsonl.py:28-33 | a URI ending in `/w/` has the spaced form of `w` as its slug when that form is already trimmed |
| Normalize.SpacedExample | scripts/vocabs_csv2jsonl/vocabs_csv2jsonl.py:33 | `some_thing` reads as `some thing` |
| Normalize.SlugOfSlash | scripts/vocabs_csv2jsonl/vocabs_csv2jsonl.py:28-33 | the URI `/` gives the empty label |
| Normalize.NormValue | scripts/vocabs_csv2jsonl/vocabs_csv2jsonl.py:81 | a missing (`None`) value reads as `""`; a present one is stripped |
| Normalize.NormPairs | scripts/vocabs_csv2jsonl/vocabs_csv2jsonl.py:81 | each column, in row order, becomes its lower-cased and stripped name paired with its normalised value |
| Normalize.NormKey | scripts/vocabs_csv2jsonl/vocabs_csv2jsonl.py:81 | `k.lower().strip()`; see `Normalize.NormPairs` and `Text.LowerUnchanged` |
| Normalize.NormalizeKeys | scripts/vocabs_csv2jsonl/vocabs_csv2jsonl.py:81 | the key/value comprehension; see `Normalize.NormalizeKeysGet` and `Normalize.NormalizeKeysDistinct` |
| Normalize.NormalizeKeysGet | scripts/vocabs_csv2jsonl/vocabs_csv2jsonl.py:81 | after normalisation, a key holds the value of the last column that normalises to it |
| Normalize.NormalizeKeysDistinct | scripts/vocabs_csv2jsonl/vocabs_csv2jsonl.py:101 | when no two columns normalise alike, each column's value is found under its normalised name |
| Normalize.ResolveSpec | scripts/vocabs_csv2jsonl/vocabs_csv2jsonl.py:82-84 | a field is `""` exactly when all its candidates are missing or empty; otherwise it is the value of a candidate that all earlier candidates leave blank |
| Normalize.Field | scripts/vocabs_csv2jsonl/vocabs_csv2jsonl.py:82-84 | one field of a row: the candidate chain resolved over the normalised keys; see `Normalize.ResolveSpec` |
| Normalize.UriKeys | scripts/vocabs_csv2jsonl/vocabs_csv2jsonl.py:102 | the uri candidates in priority order: `uri`, `url`, `col0` |
| Normalize.LabelKeys | scripts/vocabs_csv2jsonl/vocabs_csv2jsonl.py:103 | the label candidates in priority order: `label`, `name`, `col1` |
| Normalize.EquivalentKeys | scripts/vocabs_csv2jsonl/vocabs_csv2jsonl.py:104 | the equivalent-uri candidates in priority order: `equivalent_uri`, `equivalent`, `col2` |
| Normalize.AuthorityKeys | scripts/vocabs_csv2jsonl/vocabs_csv2jsonl.py:82 | the authority candidates in priority order: `authority_uri`, `authority`, `col0` |
| Normalize.CodeKeys | scripts/vocabs_csv2jsonl/vocabs_csv2jsonl.py:83 | the code candidates in priority order: `code`, `id`, `col1` |
| Normalize.UrlKeys | scripts/vocabs_csv2jsonl/vocabs_csv2jsonl.py:84 | the licence-url candidates in priority order: `url`, `license_url`, `col2` |
| Normalize.Resolve | scripts/vocabs_csv2jsonl/vocabs_csv2jsonl.py:82-84 | the `get(a) or get(b) or get(c, "")` chain; its contract is stated by `Normalize.ResolveSpec` |
| Normalize.NormalizeVocabEntry | scripts/vocabs_csv2jsonl/vocabs_csv2jsonl.py:79-113 | the entry kind follows the name (`licenses` or not); a licenses entry's label is never empty; a URI/label entry's URI is never empty |
| Normalize.Entry | scripts/vocabs_csv2jsonl/vocabs_csv2jsonl.py:86-113 | an output entry: a uri_label entry has `uri`, `label` and an optional `equivalentUri`; a licenses entry has optional `uri` (the authority), `code` and `url`, and a `label` |
| Normalize.UriLabelEntry | scripts/vocabs_csv2jsonl/vocabs_csv2jsonl.py:101-113 | no entry exactly when every URI candidate is blank; otherwise `uri` is the resolved URI; `label` is the explicit label if non-empty, else derived from the URI; `equivalentUri` is present exactly when the resolved equivalent is non-empty, and then holds it |
| Normalize.NormalizeUriLabel | scripts/vocabs_csv2jsonl/vocabs_csv2jsonl.py:101-113 | the uri_label branch; see `Normalize.UriLabelEntry` |
| Normalize.UriLabelDerivedLabel | scripts/vocabs_csv2jsonl/vocabs_csv2jsonl.py:110 | without an explicit label, the label holds no `/`, `#`, `_` or `-` |
| Normalize.AbsentKeys | scripts/vocabs_csv2jsonl/vocabs_csv2jsonl.py:103-104 | in a row with only `uri` and `label` keys, the fallback label candidates and every equivalent-URI candidate resolve to `""` |
| Normalize.UriLabelRow | scripts/vocabs_csv2jsonl/vocabs_csv2jsonl.py:101-113 | the row `{uri: u, label: l}` (both trimmed) becomes the entry with uri `u`, label `l` (or the slug of `u` when `l` is empty) and no equivalent URI |
| Normalize.LicenseEntry | scripts/vocabs_csv2jsonl/vocabs_csv2jsonl.py:80-98 | no entry exactly when every authority, code and url candidate is blank; `uri`, `code`, `url` are present exactly when non-empty, and then hold the resolved value; `label` is the code, else the label derived from authority or url, else `Unknown` |
| Normalize.NormalizeLicense | scripts/vocabs_csv2jsonl/vocabs_csv2jsonl.py:80-98 | the licenses branch; see `Normalize.LicenseEntry` |
| Normalize.BareUriRow | scripts/vocabs_csv2jsonl/vocabs_csv2jsonl.py:101-113 | a row holding only `col0`, set to a trimmed uri, becomes the entry of that uri, labelled by its slug, with no equivalent uri |
| Normalize.BareUriRowAt | scripts/vocabs_csv2jsonl/vocabs_csv2jsonl.py:101-113 | the same, with the column name passed as a parameter fixed to `col0` |
| Normalize.BareAbsentKeys | scripts/vocabs_csv2jsonl/vocabs_csv2jsonl.py:102-104 | in a `col0`-only row the uri resolves to the cell, and the label and equivalent candidates resolve to `""` |
| Convert.Accepted | scripts/vocabs_csv2jsonl/vocabs_csv2jsonl.py:139-140 | no more entries than results |
| Convert.AcceptedAppend | scripts/vocabs_csv2jsonl/vocabs_csv2jsonl.py:137-140 | the entries of `a + b` are those of `a` followed by those of `b` |
| Convert.AcceptedMembers | scripts/vocabs_csv2jsonl/vocabs_csv2jsonl.py:137-140 | an entry is accepted exactly when some result holds it |
| Convert.AcceptedAllPresent | scripts/vocabs_csv2jsonl/vocabs_csv2jsonl.py:137-140 | when every result is present, there is one entry per result, in order |
| Convert.AcceptedStep | scripts/vocabs_csv2jsonl/vocabs_csv2jsonl.py:138-140 | one more result adds its value, if any, at the end |
| Convert.Normalized | scripts/vocabs_csv2jsonl/vocabs_csv2jsonl.py:137-138 | each row's normalisation, in row order |
| Convert.CollectEntriesAppend | scripts/vocabs_csv2jsonl/vocabs_csv2jsonl.py:137-140 | collection keeps row order: the entries of `a + b` are those of `a` followed by those of `b` |
| Convert.CollectEntries | scripts/vocabs_csv2jsonl/vocabs_csv2jsonl.py:137-140 | the entries a list of rows gives; see `Convert.CollectEntriesMembers`, `Convert.CollectEntriesAppend` and `Convert.NormalizeRows` |
| Convert.CollectEntriesMembers | scripts/vocabs_csv2jsonl/vocabs_csv2jsonl.py:137-140 | an entry is collected exactly when some row normalises to it |
| Convert.CollectEntriesAllAccepted | scripts/vocabs_csv2jsonl/vocabs_csv2jsonl.py:137-140 | when every row yields an entry, the `j`-th entry is the `j`-th row's |
| Convert.LicensesKind | scripts/vocabs_csv2jsonl/vocabs_csv2jsonl.py:19-26 | only `licenses` has the licenses type |
| Convert.Vocabs | scripts/vocabs_csv2jsonl/vocabs_csv2jsonl.py:19-26 | the six known vocabularies and their types; only `licenses` has the licenses type (`Convert.LicensesKind`) |
| Convert.CollectEntriesKind | scripts/vocabs_csv2jsonl/vocabs_csv2jsonl.py:122 | every entry has the shape of the vocabulary's metadata `type` |
| Convert.DroppedLineIgnored | scripts/vocabs_csv2jsonl/vocabs_csv2jsonl.py:39-40 | a comment or blank line anywhere in the source leaves the entries unchanged |
| Convert.SourceEntries | scripts/vocabs_csv2jsonl/vocabs_csv2jsonl.py:53-140 | filter, parse and collect, in that order; see `Convert.DroppedLineIgnored`, `Convert.UriLabelTable`, `Convert.BareUriTable` and `Convert.ConvertVocab` |
| Convert.SingleRow | scripts/vocabs_csv2jsonl/vocabs_csv2jsonl.py:137-140 | a single row contributes its normalised entry, or nothing when normalisation gives `None` |
| Convert.UriLabelHeader | scripts/vocabs_csv2jsonl/vocabs_csv2jsonl.py:62-66 | the header `uri,label` is kept, names the columns `uri` and `label`, and holds no `://`, so it is read as a header |
| Convert.NamesHeader | scripts/vocabs_csv2jsonl/vocabs_csv2jsonl.py:62-66 | any header of two comma- and colon-free names, the first starting with neither whitespace nor `#`, is kept, splits into the two names and is read as a header |
| Convert.UriLabelLine | scripts/vocabs_csv2jsonl/vocabs_csv2jsonl.py:53-56 | a data line `u,l` with comma-free trimmed cells is kept and splits into `[u, l]` |
| Convert.TwoColumnRows | scripts/vocabs_csv2jsonl/vocabs_csv2jsonl.py:53-66 | a kept header of two distinct names over one kept line of two cells parses to the one row pairing the names with the cells |
| Convert.TwoLinesKept | scripts/vocabs_csv2jsonl/vocabs_csv2jsonl.py:53-56 | two retained lines pass the filter unchanged |
| Convert.TwoColumnTable | scripts/vocabs_csv2jsonl/vocabs_csv2jsonl.py:53-140 | a kept `uri,label` header over one kept line of trimmed cells gives exactly the entry of that line |
| Convert.UriLabelTable | scripts/vocabs_csv2jsonl/vocabs_csv2jsonl.py:53-140 | end to end: the lines `uri,label` and `u,l` give exactly one entry, with uri `u`, label `l` or else the slug of `u`, and no equivalent URI |
| Convert.BareUriTable | scripts/vocabs_csv2jsonl/vocabs_csv2jsonl.py:53-140 | a headerless one-column table of trimmed, comma-free uris, the first holding `://`, gives exactly `Convert.BareUriEntries`: one entry per line, in order |
| Convert.BareUriEntries | scripts/vocabs_csv2jsonl/vocabs_csv2jsonl.py:101-113 | entry `j` has line `j` as uri, the slug of that uri as label and no equivalent uri; one entry per line |
| Convert.Present | scripts/vocabs_csv2jsonl/vocabs_csv2jsonl.py:137-140 | every entry wrapped as a present normalisation result, in order |
| Convert.AcceptedPresent | scripts/vocabs_csv2jsonl/vocabs_csv2jsonl.py:137-140 | when every result is present, the collected entries are exactly those results, in order |
| Convert.BareUriNormalized | scripts/vocabs_csv2jsonl/vocabs_csv2jsonl.py:136-138 | normalising `col0`-only rows of trimmed uris gives every entry of `Convert.BareUriEntries` |
| Convert.BareUriRows | scripts/vocabs_csv2jsonl/vocabs_csv2jsonl.py:53-77 | such lines pass the filter unchanged and parse, without a header, into `col0`-only rows |
| Convert.BareNoHeader | scripts/vocabs_csv2jsonl/vocabs_csv2jsonl.py:62-63 | a trimmed first line holding `://` makes the table headerless |
| Convert.NormalizeRows | scripts/vocabs_csv2jsonl/vocabs_csv2jsonl.py:137-140 | the entry loop appends exactly the collected entries, in row order |
| Convert.ConvertVocab | scripts/vocabs_csv2jsonl/vocabs_csv2jsonl.py:115-157 | a failed fetch returns 0 with no document; otherwise the document's entries are the normalised rows of the filtered, parsed source, and the returned count and `metadata.count` both equal the number of entries |
| Convert.Metadata | scripts/vocabs_csv2jsonl/vocabs_csv2jsonl.py:117-124 | the metadata record: source, generated, format, type, name and count |

## Left out

- Reading the source is left out: opening the file, `urlopen`, UTF-8
  decoding with BOM removal, and `splitlines` (lines 37-38, 46-50, 53).
  The lines read, or the fetch failure, are a parameter of
  `Convert.ConvertVocab`.
- The `WARNING` that `convert_vocab` prints to standard error when the fetch
  fails (line 134) is left out: it is output only. The model returns 0 and
  no document in that case.
- Only the URL reader raises the `RuntimeError` that `convert_vocab`
  catches. An `OSError` from a missing local file propagates in the source.
  The model has no such error.
- Creating the output directory and writing JSONL or JSON (lines 143-155)
  is left out. `Convert.ConvertVocab` returns the document that would be
  written: the metadata and the entries in order.
- The `utcnow()` timestamp (line 120) and the source description built with
  `relative_to(ROOT)` (line 117) are string parameters.
- The `csv` module's quoting and dialect handling is not modelled. A line is
  split on every comma once its terminator is removed. The module is a
  library the model cannot see.
- Data lines longer than the header are excluded by `CsvRows.RowsFit`, a
  precondition of `CsvRows.ParseCsvLines` and `Convert.ConvertVocab`.
  `csv.DictReader` files their extra cells under a `None` key, and
  `normalize_vocab_entry` then fails on `k.lower()`.
- `Text.Lower`: lower-cases ASCII letters only. Python's full Unicode case
  mapping (which can change a string's length) is not modelled.
- `Normalize.SlugExample` takes the example URI as two named pieces, the
  site and the segment, each fixed to its literal by a precondition. Stated
  as one literal, the proof would evaluate the whole pipeline on the text.
- `Convert.UriLabelTable` takes the header's two names the same way: its
  header line is `a + "," + b` with `a == "uri"` and `b == "label"`.
- `Normalize.BareUriRowAt` and `Normalize.BareAbsentKeys` take the column
  name `col0` the same way, as a parameter `k` with `k == "col0"`, so that
  the proof does not unfold `Lower` and `Strip` on the literal.
- `main()` (lines 159-207) is left out: argument parsing, the remote-to-local
  fallback, existence checks and status printing are orchestration around
  I/O. The `print` at module load (line 15) and the `ROOT`/`SRC`/`DST`
  paths are left out too.

=== FILE: convert.dfy ===
/**
 * The part of `convert_vocab` that turns one vocabulary's lines into its
 * output document: the metadata record and the accepted entries, in row
 * order, with `count` equal to the number of entries. Reading the source,
 * the timestamp and writing the file are outside the model: the lines read
 * (or the fetch failure) and the metadata strings are parameters.
 */
module Convert {
  import opened Wrappers
  import opened Text
  import opened LineFilter
  import opened CsvRows
  import opened Normalize

  datatype VocabType = UriLabelType | LicensesType

  /** `VOCABS`: the vocabularies the converter knows, and their kind. */
  const Vocabs: map<string, VocabType> := map[
    "access_rights" := UriLabelType,
    "file_types" := UriLabelType,
    "licenses" := LicensesType,
    "machine_readable" := UriLabelType,
    "media_types" := UriLabelType,
    "non_proprietary" := UriLabelType
  ]

  datatype Format = Jsonl | Json

  /** The metadata record, with its keys in emission order. */
  datatype Metadata = Metadata(
    source: string, generated: string, format: Format,
    vocabType: VocabType, name: string, count: nat)

  datatype Document = Document(metadata: Metadata, entries: seq<Entry>)

  /** The outcome of reading the source: its lines, or the `RuntimeError`
      a failed URL fetch raises. */
  datatype Fetch = Fetched(lines: seq<string>) | FetchFailed(message: string)

  /** The present values of `results`, in order (`if entry: entries.append(entry)`). */
  function Accepted(results: seq<Option<Entry>>): (entries: seq<Entry>)
    ensures |entries| <= |results|
  {
    if results == [] then []
    else
      var init := Accepted(results[..|results| - 1]);
      match results[|results| - 1]
      case Some(e) => init + [e]
      case None => init
  }

  /** Accepting is done one result at a time: the entries of two runs of
      results are those of the first followed by those of the second. */
  lemma {:induction false} AcceptedAppend(a: seq<Option<Entry>>, b: seq<Option<Entry>>)
    ensures Accepted(a + b) == Accepted(a) + Accepted(b)
  {
    if b != [] {
      var init := b[..|b| - 1];
      assert (a + b)[..|a + b| - 1] == a + init;
      assert (a + b)[|a + b| - 1] == b[|b| - 1];
      AcceptedAppend(a, init);
    } else {
      assert a + b == a;
    }
  }

  /** An entry is accepted exactly when some result holds it. */
  lemma {:induction false} AcceptedMembers(results: seq<Option<Entry>>, e: Entry)
    ensures e in Accepted(results) <==> Some(e) in results
  {
    if results != [] {
      var init := results[..|results| - 1];
      AcceptedMembers(init, e);
      assert results == init + [results[|results| - 1]];
    }
  }

  /** When every result is present, there is one entry per result, in order. */
  lemma {:induction false} AcceptedAllPresent(results: seq<Option<Entry>>)
    requires forall j :: 0 <= j < |results| ==> results[j].Some?
    ensures |Accepted(results)| == |results|
    ensures forall j :: 0 <= j < |results| ==> Some(Accepted(results)[j]) == results[j]
  {
    if results != [] {
      var init := results[..|results| - 1];
      assert forall j :: 0 <= j < |init| ==> init[j] == results[j];
      AcceptedAllPresent(init);
    }
  }

  /** `normalize_vocab_entry(name, row)` for every row, in order. */
  function Normalized(name: string, rows: seq<Row>): (results: seq<Option<Entry>>)
    ensures |results| == |rows|
    ensures forall j :: 0 <= j < |rows| ==> results[j] == NormalizeVocabEntry(name, rows[j])
  {
    seq(|rows|, j requires 0 <= j < |rows| => NormalizeVocabEntry(name, rows[j]))
  }

  /** The entries of `rows`: each row's normalisation, where there is one,
      in row order. */
  function CollectEntries(name: string, rows: seq<Row>): seq<Entry> {
    Accepted(Normalized(name, rows))
  }

  /** Collecting is done row by row. */
  lemma CollectEntriesAppend(name: string, a: seq<Row>, b: seq<Row>)
    ensures CollectEntries(name, a + b) == CollectEntries(name, a) + CollectEntries(name, b)
  {
    var l, r := Normalized(name, a + b), Normalized(name, a) + Normalized(name, b);
    forall j | 0 <= j < |l| ensures l[j] == r[j] {
      if j < |a| {
        assert (a + b)[j] == a[j];
      } else {
        assert (a + b)[j] == b[j - |a|];
      }
    }
    assert l == r;
    AcceptedAppend(Normalized(name, a), Normalized(name, b));
  }

  /** An entry is collected exactly when some row normalises to it. */
  lemma CollectEntriesMembers(name: string, rows: seq<Row>, e: Entry)
    ensures e in CollectEntries(name, rows) <==>
      exists j :: 0 <= j < |rows| && NormalizeVocabEntry(name, rows[j]) == Some(e)
  {
    var results := Normalized(name, rows);
    AcceptedMembers(results, e);
    if Some(e) in results {
      var j :| 0 <= j < |results| && results[j] == Some(e);
    }
  }

  /** When every row yields an entry, there is one entry per row, in order. */
  lemma CollectEntriesAllAccepted(name: string, rows: seq<Row>)
    requires forall j :: 0 <= j < |rows| ==> NormalizeVocabEntry(name, rows[j]).Some?
    ensures |CollectEntries(name, rows)| == |rows|
    ensures forall j :: 0 <= j < |rows| ==>
      Some(CollectEntries(name, rows)[j]) == NormalizeVocabEntry(name, rows[j])
  {
    AcceptedAllPresent(Normalized(name, rows));
  }

  /** Only the licenses vocabulary is of the licenses kind. */
  lemma LicensesKind(name: string)
    requires name in Vocabs
    ensures Vocabs[name] == LicensesType <==> name == LicensesName
  {
  }

  /** Every entry has the shape of its vocabulary's kind. */
  lemma CollectEntriesKind(name: string, rows: seq<Row>)
    requires name in Vocabs
    ensures forall e :: e in CollectEntries(name, rows) ==>
      (e.License? <==> Vocabs[name] == LicensesType)
  {
    LicensesKind(name);
    forall e | e in CollectEntries(name, rows)
      ensures e.License? <==> name == LicensesName
    {
      CollectEntriesMembers(name, rows, e);
      var j :| 0 <= j < |rows| && NormalizeVocabEntry(name, rows[j]) == Some(e);
    }
  }

  /** One more result extends the accepted entries by its value, if any. */
  lemma AcceptedStep(results: seq<Option<Entry>>, i: nat)
    requires i < |results|
    ensures Accepted(results[..i + 1])
         == Accepted(results[..i]) + (if results[i].Some? then [results[i].value] else [])
  {
    assert results[..i + 1][..i] == results[..i];
  }

  /** The entries the converter emits for the lines read from a source. */
  function SourceEntries(name: string, lines: seq<string>): seq<Entry>
    requires RowsFit(FilterLines(lines))
  {
    CollectEntries(name, ParseCsvLines(FilterLines(lines)))
  }

  /** A comment or blank line anywhere in the source changes nothing. */
  lemma DroppedLineIgnored(name: string, before: seq<string>, dropped: string, after: seq<string>)
    requires !IsRetained(dropped)
    requires RowsFit(FilterLines(before + after))
    ensures RowsFit(FilterLines(before + [dropped] + after))
    ensures SourceEntries(name, before + [dropped] + after) == SourceEntries(name, before + after)
  {
    FilterLinesSkipsDropped(before, dropped, after);
  }

  /** The header `uri,label` is kept, names the two columns `uri` and
      `label`, and holds no `://`, so it is read as a header. */
  lemma UriLabelHeader(a: string, b: string)
    requires a == "uri" && b == "label"
    ensures IsRetained(a + "," + b)
    ensures Cells(a + "," + b) == [a, b]
    ensures !Contains(Strip(a + "," + b), "://")
  {
    NamesHeader(a, b);
  }

  /** A header of two names, free of commas and colons, the first starting
      with neither whitespace nor `#` and the second not ending in
      whitespace, is kept, split into the two names and read as a header. */
  lemma NamesHeader(a: string, b: string)
    requires a != [] && !IsSpace(a[0]) && a[0] != '#' && ',' !in a && ':' !in a
    requires b != [] && !IsSpace(b[|b| - 1]) && ',' !in b && ':' !in b
    ensures IsRetained(a + "," + b)
    ensures Cells(a + "," + b) == [a, b]
    ensures !Contains(Strip(a + "," + b), "://")
  {
    UriLabelLine(a, b);
    var h := a + "," + b;
    assert h[|h| - 1] == b[|b| - 1];
    StripUnchanged(h);
    assert Free(h, {':'}) by {
      forall i | 0 <= i < |h| ensures h[i] != ':' {
        if i < |a| { assert h[i] == a[i]; }
        else if i > |a| { assert h[i] == b[i - |a| - 1]; }
      }
    }
    NotContainsWithout(h, "://");
  }

  /** A data line `u,l` with comma-free, trimmed cells is kept and split
      into exactly those two cells. */
  lemma UriLabelLine(u: string, l: string)
    requires u != [] && !IsSpace(u[0]) && u[0] != '#' && ',' !in u
    requires (l == [] || !IsSpace(l[|l| - 1])) && ',' !in l
    ensures IsRetained(u + "," + l)
    ensures Cells(u + "," + l) == [u, l]
  {
    assert (u + "," + l)[0] == u[0];
    RetainedFirst(u + "," + l);
    CellsOfPair(u, l);
  }

  /** End to end: a `uri,label` table of one data line gives exactly the
      entry of that line, labelled by its label or else by the uri's slug. */
  lemma UriLabelTable(name: string, a: string, b: string, u: string, l: string)
    requires name != LicensesName
    requires a == "uri" && b == "label"
    requires u != [] && !IsSpace(u[0]) && u[0] != '#' && !IsSpace(u[|u| - 1]) && ',' !in u
    requires (l == [] || (!IsSpace(l[0]) && !IsSpace(l[|l| - 1]))) && ',' !in l
    ensures RowsFit(FilterLines([a + "," + b, u + "," + l]))
    ensures SourceEntries(name, [a + "," + b, u + "," + l])
         == [UriLabel(u, if l != "" then l else SlugLabelFromUri(u), None)]
  {
    UriLabelHeader(a, b);
    UriLabelLine(u, l);
    TwoColumnTable(name, a + "," + b, u + "," + l, u, l);
  }

  /** The step of `UriLabelTable` that does not depend on the header's text. */
  lemma TwoColumnTable(name: string, header: string, line: string, u: string, l: string)
    requires name != LicensesName
    requires IsRetained(header) && Cells(header) == ["uri", "label"] && !Contains(Strip(header), "://")
    requires IsRetained(line) && Cells(line) == [u, l]
    requires u != [] && !IsSpace(u[0]) && !IsSpace(u[|u| - 1])
    requires l == [] || (!IsSpace(l[0]) && !IsSpace(l[|l| - 1]))
    ensures RowsFit(FilterLines([header, line]))
    ensures SourceEntries(name, [header, line])
         == [UriLabel(u, if l != "" then l else SlugLabelFromUri(u), None)]
  {
    var row: Row := [("uri", Some(u)), ("label", Some(l))];
    TwoColumnRows(header, line, "uri", "label", u, l);
    SingleRow(name, row);
    UriLabelRow(name, u, l);
  }

  /** A kept header of two distinct names over one kept line of two cells
      parses to the one row that pairs the names with the cells. */
  lemma TwoColumnRows(header: string, line: string, a: string, b: string, u: string, l: string)
    requires a != b
    requires IsRetained(header) && Cells(header) == [a, b] && !Contains(Strip(header), "://")
    requires IsRetained(line) && Cells(line) == [u, l]
    ensures RowsFit(FilterLines([header, line]))
    ensures ParseCsvLines(FilterLines([header, line])) == [[(a, Some(u)), (b, Some(l))]]
  {
    TwoLinesKept(header, line);
    HeaderOverOneLine(header, line, a, b, u, l);
  }

  /** Two retained lines pass the filter unchanged. */
  lemma TwoLinesKept(a: string, b: string)
    requires IsRetained(a) && IsRetained(b)
    ensures FilterLines([a, b]) == [a, b]
  {
    FilterLinesKeepsRetained([a, b]);
  }

  /** A single row contributes its normalised entry, or nothing. */
  lemma SingleRow(name: string, row: Row)
    ensures var r := NormalizeVocabEntry(name, row);
      CollectEntries(name, [row]) == if r.Some? then [r.value] else []
  {
    var results := Normalized(name, [row]);
    assert results == [NormalizeVocabEntry(name, row)];
    assert results[..0] == [];
  }

  /** A table without a header: one column of trimmed, comma-free cells,
      the first holding `://`. Every line is kept and becomes the entry of
      its uri, labelled by the uri's slug, so there is one entry per line. */
  lemma BareUriTable(name: string, lines: seq<string>)
    requires name != LicensesName
    requires forall j :: 0 <= j < |lines| ==>
      && lines[j] != [] && !IsSpace(lines[j][0]) && lines[j][0] != '#'
      && !IsSpace(lines[j][|lines[j]| - 1]) && ',' !in lines[j]
    requires lines != [] && Contains(lines[0], "://")
    ensures RowsFit(FilterLines(lines))
    ensures SourceEntries(name, lines) == BareUriEntries(lines)
  {
    BareUriRows(lines);
    var rows := NoHeaderRows(lines);
    BareUriNormalized(name, lines, rows);
    AcceptedPresent(BareUriEntries(lines));
  }

  /** The entries `BareUriTable` promises: entry `j` has line `j` as uri,
      the slug of that uri as label, and no equivalent uri. */
  function BareUriEntries(lines: seq<string>): (entries: seq<Entry>)
    ensures |entries| == |lines|
    ensures forall j :: 0 <= j < |lines| ==>
      entries[j] == UriLabel(lines[j], SlugLabelFromUri(lines[j]), None)
  {
    seq(|lines|, j requires 0 <= j < |lines| => UriLabel(lines[j], SlugLabelFromUri(lines[j]), None))
  }

  /** Every entry present: acceptance returns them all, in order. */
  lemma AcceptedPresent(entries: seq<Entry>)
    ensures Accepted(Present(entries)) == entries
  {
    var results := Present(entries);
    AcceptedAllPresent(results);
  }

  /** Wraps every entry as a present result. */
  function Present(entries: seq<Entry>): (results: seq<Option<Entry>>)
    ensures |results| == |entries|
    ensures forall j :: 0 <= j < |entries| ==> results[j] == Some(entries[j])
  {
    seq(|entries|, j requires 0 <= j < |entries| => Some(entries[j]))
  }

  /** Normalising `col0`-only rows of trimmed uris gives every entry of
      `BareUriEntries`. */
  lemma BareUriNormalized(name: string, lines: seq<string>, rows: seq<Row>)
    requires name != LicensesName
    requires forall j :: 0 <= j < |lines| ==>
      lines[j] != [] && !IsSpace(lines[j][0]) && !IsSpace(lines[j][|lines[j]| - 1])
    requires |rows| == |lines|
    requires forall j :: 0 <= j < |lines| ==> rows[j] == [(ColName(0), Some(lines[j]))]
    ensures Normalized(name, rows) == Present(BareUriEntries(lines))
  {
    var results := Normalized(name, rows);
    forall j | 0 <= j < |lines| ensures results[j] == Present(BareUriEntries(lines))[j] {
      BareUriRow(name, lines[j]);
    }
  }

  /** The parsing half of `BareUriTable`: the lines pass the filter
      unchanged and parse, without a header, into `col0`-only rows. */
  lemma BareUriRows(lines: seq<string>)
    requires forall j :: 0 <= j < |lines| ==>
      && lines[j] != [] && !IsSpace(lines[j][0]) && lines[j][0] != '#'
      && !IsSpace(lines[j][|lines[j]| - 1]) && ',' !in lines[j]
    requires lines != [] && Contains(lines[0], "://")
    ensures FilterLines(lines) == lines
    ensures RowsFit(lines)
    ensures ParseCsvLines(lines) == NoHeaderRows(lines)
    ensures forall j :: 0 <= j < |lines| ==> NoHeaderRows(lines)[j] == [(ColName(0), Some(lines[j]))]
  {
    forall j | 0 <= j < |lines| ensures IsRetained(lines[j]) {
      RetainedFirst(lines[j]);
    }
    FilterLinesKeepsRetained(lines);
    BareNoHeader(lines);
    forall j | 0 <= j < |lines|
      ensures lines[j][|lines[j]| - 1] != '\n' && lines[j][|lines[j]| - 1] != '\r'
    {
      assert !IsSpace(lines[j][|lines[j]| - 1]);
    }
    SingleColumnRows(lines);
  }

  /** A first line that holds `://` and is already trimmed is data, not a
      header. */
  lemma BareNoHeader(lines: seq<string>)
    requires lines != [] && lines[0] != [] && !IsSpace(lines[0][0]) && !IsSpace(lines[0][|lines[0]| - 1])
    requires Contains(lines[0], "://")
    ensures RowsFit(lines)
    ensures ParseCsvLines(lines) == NoHeaderRows(lines)
  {
    StripUnchanged(lines[0]);
    assert !HasHeader(lines);
  }

  /** The loop of lines 137-140: normalise each row and keep the entries. */
  method NormalizeRows(name: string, rows: seq<Row>) returns (entries: seq<Entry>)
    ensures entries == CollectEntries(name, rows)
  {
    ghost var results := Normalized(name, rows);
    entries := [];
    var i := 0;
    while i < |rows|
      invariant i <= |rows|
      invariant entries == Accepted(results[..i])
    {
      var entry := NormalizeVocabEntry(name, rows[i]);
      assert entry == results[i];
      AcceptedStep(results, i);
      if entry.Some? {
        entries := entries + [entry.value];
      }
      i := i + 1;
    }
    assert results[..i] == results;
  }

  /** `convert_vocab` without its I/O: a failed fetch yields 0 and no
      document; otherwise the document holds the metadata and the entries of
      the parsed rows, in order, and `count`, the returned value and the
      metadata's `count` are all the number of entries. */
  method ConvertVocab(name: string, source: string, generated: string, format: Format, fetch: Fetch)
    returns (count: nat, doc: Option<Document>)
    requires name in Vocabs
    requires fetch.Fetched? ==> RowsFit(FilterLines(fetch.lines))
    ensures fetch.FetchFailed? ==> count == 0 && doc.None?
    ensures fetch.Fetched? ==> (
      && doc.Some?
      && doc.value.entries == SourceEntries(name, fetch.lines)
      && doc.value.metadata == Metadata(source, generated, format, Vocabs[name], name, count)
      && count == |doc.value.entries|)
  {
    if fetch.FetchFailed? {
      return 0, None;
    }
    var lines := ReadLines(fetch.lines);
    var rows := ParseLines(lines);
    var entries := NormalizeRows(name, rows);
    count := |entries|;
    doc := Some(Document(Metadata(source, generated, format, Vocabs[name], name, count), entries));
  }
}

=== FILE: csv_rows.dfy ===
/**
 * `_parse_csv_lines`: turning the retained lines into rows. The first line
 * is a header unless it holds a URI (`://`); with a header every later line
 * becomes a row keyed by the header's field names, as `csv.DictReader`
 * builds it, and without one every line becomes a row keyed `col0`,
 * `col1`, ... and padded with empty cells to the longest line.
 *
 * Cells are found by splitting a line on every comma once its line
 * terminator is removed; CSV quoting is not modelled.
 */
module CsvRows {
  import opened Wrappers
  import opened Text
  import opened Dict

  /** A parsed row. `DictReader` fills the fields a short line does not
      reach with `None`; every other cell is a string. */
  type Row = Dict<Option<string>>

  /** The line without one trailing `\r\n`, `\n` or `\r`. */
  function StripLineEnd(line: string): (r: string)
    ensures |line| - 2 <= |r| <= |line| && r == line[..|r|]
    ensures |line| - |r| == 2 ==> line[|r|..] == "\r\n"
    ensures |line| - |r| == 1 ==> line[|r|] == '\n' || line[|r|] == '\r'
    ensures |line| >= 2 && line[|line| - 2..] == "\r\n" ==> |r| == |line| - 2
    ensures line != [] && (line[|line| - 1] == '\n' || line[|line| - 1] == '\r') ==> |r| < |line|
    ensures line == [] || (line[|line| - 1] != '\n' && line[|line| - 1] != '\r') ==> r == line
  {
    if |line| >= 2 && line[|line| - 2..] == "\r\n" then line[..|line| - 2]
    else if line != [] && (line[|line| - 1] == '\n' || line[|line| - 1] == '\r') then line[..|line| - 1]
    else line
  }

  /** The cells of one CSV line: never none, and none holds a comma. */
  function Cells(line: string): (cells: seq<string>)
    ensures |cells| >= 1
    ensures forall i :: 0 <= i < |cells| ==> ',' !in cells[i]
  {
    Split(StripLineEnd(line), ',')
  }

  /** A line of two comma-free cells, with no terminator, has exactly those cells. */
  lemma CellsOfPair(a: string, b: string)
    requires ',' !in a && ',' !in b
    requires b != [] ==> b[|b| - 1] != '\n' && b[|b| - 1] != '\r'
    ensures Cells(a + "," + b) == [a, b]
  {
    var line := a + "," + b;
    assert line[|line| - 1] == if b == [] then ',' else b[|b| - 1];
    assert |line| >= 2 ==> line[|line| - 2..][1] == line[|line| - 1];
    assert StripLineEnd(line) == line;
    SplitPrefix(a, b, ',');
    SplitFree(b, ',');
  }

  /** Lines 62-63: the first line is a header unless, stripped, it contains `://`. */
  predicate HasHeader(lines: seq<string>)
    requires lines != []
  {
    !Contains(Strip(lines[0]), "://")
  }

  /** `zip(ks, vs)`: pairs up to the shorter of the two. */
  function Zip<V>(ks: seq<string>, vs: seq<V>): (ps: seq<(string, V)>)
    ensures |ps| == if |ks| <= |vs| then |ks| else |vs|
    ensures forall i :: 0 <= i < |ps| ==> ps[i] == (ks[i], vs[i])
  {
    if ks == [] || vs == [] then [] else [(ks[0], vs[0])] + Zip(ks[1..], vs[1..])
  }

  function Somes(cells: seq<string>): (r: seq<Option<string>>)
    ensures |r| == |cells|
    ensures forall i :: 0 <= i < |cells| ==> r[i] == Some(cells[i])
  {
    seq(|cells|, i requires 0 <= i < |cells| => Some(cells[i]))
  }

  /** The assignments `DictReader` makes for one line that is no longer
      than the header: `dict(zip(fieldnames, row))`, then `None` for every
      field past the end of the line. */
  function ReaderPairs(fieldnames: seq<string>, cells: seq<string>): (ps: seq<(string, Option<string>)>)
    requires |cells| <= |fieldnames|
    ensures |ps| == |fieldnames|
    ensures forall i :: 0 <= i < |ps| ==>
      ps[i] == (fieldnames[i], if i < |cells| then Some(cells[i]) else None)
  {
    Zip(fieldnames, Somes(cells))
      + seq(|fieldnames| - |cells|, i requires 0 <= i < |fieldnames| - |cells| => (fieldnames[|cells| + i], None))
  }

  /** One `DictReader` row. */
  function ReaderRow(fieldnames: seq<string>, cells: seq<string>): Row
    requires |cells| <= |fieldnames|
  {
    FromPairs(ReaderPairs(fieldnames, cells))
  }

  /** No data line is longer than the header. */
  predicate Fits(fieldnames: seq<string>, data: seq<seq<string>>) {
    forall j :: 0 <= j < |data| ==> |data[j]| <= |fieldnames|
  }

  /** With a header, no later line is longer than it. A longer line would
      put its extra cells under a `None` key, on which
      `normalize_vocab_entry` fails when it lower-cases the keys. */
  predicate RowsFit(lines: seq<string>) {
    lines != [] && HasHeader(lines) ==> Fits(Cells(lines[0]), LineCells(lines[1..]))
  }

  /** `list(csv.DictReader(lines))`: one row per data line, keyed by the
      header's field names. */
  function HeaderRows(fieldnames: seq<string>, data: seq<seq<string>>): (rows: seq<Row>)
    requires Fits(fieldnames, data)
    ensures |rows| == |data|
  {
    seq(|data|, j requires 0 <= j < |data| => ReaderRow(fieldnames, data[j]))
  }

  /** The synthetic column name `f"col{i}"`. */
  function ColName(i: nat): string {
    "col" + NatToString(i)
  }

  /** Different columns get different names. */
  lemma ColNameInjective(i: nat, j: nat)
    requires ColName(i) == ColName(j)
    ensures i == j
  {
    assert ColName(i)[3..] == NatToString(i);
    assert ColName(j)[3..] == NatToString(j);
    NatToStringInjective(i, j);
  }

  /** `[f"col{i}" for i in range(n)]`. */
  function ColNames(n: nat): (names: seq<string>)
    ensures |names| == n
    ensures forall i :: 0 <= i < n ==> names[i] == ColName(i)
  {
    seq(n, i requires 0 <= i < n => ColName(i))
  }

  /** `max(len(r) for r in rows)`: no row is longer, and some row is that long. */
  function MaxLen(rows: seq<seq<string>>): (m: nat)
    ensures forall j :: 0 <= j < |rows| ==> |rows[j]| <= m
    ensures rows != [] ==> exists j :: 0 <= j < |rows| && |rows[j]| == m
    ensures rows == [] ==> m == 0
  {
    if rows == [] then 0
    else
      var m := MaxLen(rows[..|rows| - 1]);
      var last := |rows[|rows| - 1]|;
      if last > m then last else m
  }

  /** `list(r) + [""] * (n - len(r))`. */
  function Pad(cells: seq<string>, n: nat): (r: seq<string>)
    requires |cells| <= n
    ensures |r| == n
    ensures forall i :: 0 <= i < n ==> r[i] == if i < |cells| then cells[i] else ""
  {
    cells + seq(n - |cells|, _ => "")
  }

  /** Line 76: the padded cells keyed `col0`, `col1`, ... in order. */
  function PaddedRow(cells: seq<string>, n: nat): Row
    requires |cells| <= n
  {
    Zip(ColNames(n), Somes(Pad(cells, n)))
  }

  /** The column names are distinct, so `dict(zip(headers, r_padded))`
      keeps every pair, in order: it is `PaddedRow`. */
  lemma PaddedRowIsDict(cells: seq<string>, n: nat)
    requires |cells| <= n
    ensures FromPairs(Zip(ColNames(n), Somes(Pad(cells, n)))) == PaddedRow(cells, n)
  {
    PaddedRowUnique(cells, n);
    FromPairsUnique(PaddedRow(cells, n));
  }

  lemma PaddedRowUnique(cells: seq<string>, n: nat)
    requires |cells| <= n
    ensures UniqueKeys(PaddedRow(cells, n))
  {
    var ps := PaddedRow(cells, n);
    forall i, j | 0 <= i < j < |ps| ensures ps[i].0 != ps[j].0 {
      if ps[i].0 == ps[j].0 {
        ColNameInjective(i, j);
      }
    }
  }

  /** The first three column names, which the candidate lists of the
      normaliser name. */
  lemma FirstColNames()
    ensures ColName(0) == "col0" && ColName(1) == "col1" && ColName(2) == "col2"
  {
    assert NatToString(0) == "0";
    assert NatToString(1) == "1";
    assert NatToString(2) == "2";
  }

  /** Lines of one comma-free cell each, without terminators, parse without
      a header into rows holding only `col0`, set to the line. */
  lemma SingleColumnRows(lines: seq<string>)
    requires forall j :: 0 <= j < |lines| ==> ',' !in lines[j]
    requires forall j :: 0 <= j < |lines| ==>
      lines[j] != [] && lines[j][|lines[j]| - 1] != '\n' && lines[j][|lines[j]| - 1] != '\r'
    ensures var rows := NoHeaderRows(lines);
      forall j :: 0 <= j < |lines| ==> rows[j] == [(ColName(0), Some(lines[j]))]
  {
    var cells := LineCells(lines);
    forall j | 0 <= j < |lines| ensures cells[j] == [lines[j]] {
      SingleCell(lines[j]);
    }
    if lines != [] {
      assert MaxLen(cells) == 1;
      forall j | 0 <= j < |lines|
        ensures NoHeaderRows(lines)[j] == [(ColName(0), Some(lines[j]))]
      {
        assert NoHeaderRows(lines)[j] == PaddedRow([lines[j]], 1);
      }
    }
  }

  /** A comma-free line without a terminator is one cell. */
  lemma SingleCell(line: string)
    requires ',' !in line
    requires line != [] && line[|line| - 1] != '\n' && line[|line| - 1] != '\r'
    ensures Cells(line) == [line]
  {
    assert |line| >= 2 ==> line[|line| - 2..][1] == line[|line| - 1];
    assert StripLineEnd(line) == line;
    SplitFree(line, ',');
  }

  /** A padded row has the keys `col0` ... `col(n-1)`; `colc` holds cell
      `c` of the line, or `""` past its end. */
  lemma PaddedRowShape(cells: seq<string>, n: nat, row: Row)
    requires |cells| <= n && row == PaddedRow(cells, n)
    ensures Keys(row) == ColNames(n)
    ensures forall c :: 0 <= c < n ==>
      Get(row, ColName(c)) == Some(Some(if c < |cells| then cells[c] else ""))
  {
    PaddedRowUnique(cells, n);
    forall c | 0 <= c < n
      ensures Get(row, ColName(c)) == Some(Some(if c < |cells| then cells[c] else ""))
    {
      GetUnique(row, c);
    }
  }

  /** The cells of every line. */
  function LineCells(lines: seq<string>): (rows: seq<seq<string>>)
    ensures |rows| == |lines|
    ensures forall j :: 0 <= j < |lines| ==> rows[j] == Cells(lines[j])
  {
    seq(|lines|, j requires 0 <= j < |lines| => Cells(lines[j]))
  }

  /** Lines 68-77: every line is data, padded to the longest. */
  function NoHeaderRows(lines: seq<string>): (rows: seq<Row>)
    ensures |rows| == |lines|
  {
    var cells := LineCells(lines);
    var n := MaxLen(cells);
    seq(|cells|, j requires 0 <= j < |cells| => PaddedRow(cells[j], n))
  }

  /** `_parse_csv_lines`. */
  function ParseCsvLines(lines: seq<string>): (rows: seq<Row>)
    requires RowsFit(lines)
    ensures lines == [] ==> rows == []
  {
    if lines == [] then []
    else if HasHeader(lines) then HeaderRows(Cells(lines[0]), LineCells(lines[1..]))
    else NoHeaderRows(lines)
  }

  /** The header decision (lines 60-63): no lines give no rows; otherwise
      the first line is a header exactly when it does not contain `://`. */
  lemma ParseDecision(lines: seq<string>)
    requires RowsFit(lines)
    ensures lines == [] ==> ParseCsvLines(lines) == []
    ensures lines != [] ==> (HasHeader(lines) <==> !Contains(lines[0], "://"))
    ensures lines != [] && HasHeader(lines) ==>
      ParseCsvLines(lines) == HeaderRows(Cells(lines[0]), LineCells(lines[1..]))
    ensures lines != [] && Contains(lines[0], "://") ==>
      ParseCsvLines(lines) == NoHeaderRows(lines)
  {
    if lines != [] {
      ContainsUnderStrip(lines[0], "://");
    }
  }

  /** Without a header: one row per line, keyed exactly `col0` ...
      `col(n-1)` for the longest line's length `n`, holding the line's cells
      in order and `""` past its end. */
  lemma NoHeaderRowShape(lines: seq<string>, j: nat)
    requires j < |lines|
    ensures var rows := NoHeaderRows(lines);
      var n := MaxLen(LineCells(lines));
      var cells := Cells(lines[j]);
      && |rows| == |lines|
      && |cells| <= n
      && Keys(rows[j]) == ColNames(n)
      && forall c :: 0 <= c < n ==>
           Get(rows[j], ColName(c)) == Some(Some(if c < |cells| then cells[c] else ""))
  {
    var all := LineCells(lines);
    var n := MaxLen(all);
    var cells := Cells(lines[j]);
    assert all[j] == cells;
    var rows := NoHeaderRows(lines);
    assert |cells| <= n;
    assert rows[j] == PaddedRow(cells, n);
    PaddedRowShape(cells, n, rows[j]);
  }

  /** A `DictReader` row's keys are the field names; a name takes the cell
      of its last position in the header, or `None` when that position is
      past the end of the line. */
  lemma ReaderRowKeys(fieldnames: seq<string>, cells: seq<string>, row: Row, name: string)
    requires |cells| <= |fieldnames| && row == ReaderRow(fieldnames, cells)
    ensures HasKey(row, name) <==> name in fieldnames
    ensures Get(row, name) == LastValue(ReaderPairs(fieldnames, cells), name)
  {
    var ps := ReaderPairs(fieldnames, cells);
    FromPairsGet(ps, name);
    FromPairsHasKey(ps, name);
    if name in fieldnames {
      var i :| 0 <= i < |fieldnames| && fieldnames[i] == name;
      assert ps[i].0 == name;
    }
  }

  /** With distinct field names a `DictReader` row holds, in header order,
      each field with its cell, or `None` past the end of the line. */
  lemma ReaderRowDistinct(fieldnames: seq<string>, cells: seq<string>, row: Row)
    requires |cells| <= |fieldnames| && row == ReaderRow(fieldnames, cells)
    requires forall a, b :: 0 <= a < b < |fieldnames| ==> fieldnames[a] != fieldnames[b]
    ensures Keys(row) == fieldnames
    ensures forall c :: 0 <= c < |fieldnames| ==>
      Get(row, fieldnames[c]) == Some(if c < |cells| then Some(cells[c]) else None)
  {
    var ps := ReaderPairs(fieldnames, cells);
    FromPairsUnique(ps);
    forall c | 0 <= c < |fieldnames|
      ensures Get(row, fieldnames[c]) == Some(if c < |cells| then Some(cells[c]) else None)
    {
      GetUnique(row, c);
    }
  }

  /** A line as long as a header of distinct names gives the row that
      pairs each name with its cell, in header order. */
  lemma ReaderRowFull(fieldnames: seq<string>, cells: seq<string>)
    requires |cells| == |fieldnames|
    requires forall a, b :: 0 <= a < b < |fieldnames| ==> fieldnames[a] != fieldnames[b]
    ensures ReaderRow(fieldnames, cells) == Zip(fieldnames, Somes(cells))
  {
    var ps := ReaderPairs(fieldnames, cells);
    FromPairsUnique(ps);
    assert ps == Zip(fieldnames, Somes(cells));
  }

  /** A header of two distinct names over one line of two cells parses to
      the one row pairing the names with the cells. */
  lemma HeaderOverOneLine(header: string, line: string, a: string, b: string, u: string, l: string)
    requires a != b
    requires Cells(header) == [a, b] && !Contains(Strip(header), "://")
    requires Cells(line) == [u, l]
    ensures RowsFit([header, line])
    ensures ParseCsvLines([header, line]) == [[(a, Some(u)), (b, Some(l))]]
  {
    var lines := [header, line];
    assert HasHeader(lines);
    assert LineCells(lines[1..]) == [[u, l]];
    ReaderRowFull([a, b], [u, l]);
    assert Zip([a, b], Somes([u, l])) == [(a, Some(u)), (b, Some(l))];
  }

  /** With a header: one row per later line, built by `DictReader` from the
      header's field names and that line's cells. */
  lemma HeaderRowsShape(lines: seq<string>, j: nat)
    requires lines != [] && HasHeader(lines) && RowsFit(lines) && 1 <= j < |lines|
    ensures var rows := HeaderRows(Cells(lines[0]), LineCells(lines[1..]));
      && |rows| == |lines| - 1
      && |Cells(lines[j])| <= |Cells(lines[0])|
      && rows[j - 1] == ReaderRow(Cells(lines[0]), Cells(lines[j]))
  {
    var data := LineCells(lines[1..]);
    assert data[j - 1] == Cells(lines[j]);
  }

  /** The loop of lines 73-77: pad each row and key it by column name. */
  method PadRows(rows: seq<seq<string>>, maxLen: nat) returns (result: seq<Row>)
    requires forall j :: 0 <= j < |rows| ==> |rows[j]| <= maxLen
    ensures |result| == |rows|
    ensures forall j :: 0 <= j < |rows| ==> result[j] == PaddedRow(rows[j], maxLen)
  {
    result := [];
    var i := 0;
    while i < |rows|
      invariant i <= |rows|
      invariant |result| == i
      invariant forall j :: 0 <= j < i ==> result[j] == PaddedRow(rows[j], maxLen)
    {
      var row := PaddedRow(rows[i], maxLen);
      result := result + [row];
      assert result[i] == row;
      i := i + 1;
    }
  }

  /** `_parse_csv_lines` as the source runs it. */
  method ParseLines(lines: seq<string>) returns (rows: seq<Row>)
    requires RowsFit(lines)
    ensures rows == ParseCsvLines(lines)
  {
    if lines == [] {
      return [];
    }
    var firstLine := Strip(lines[0]);
    var hasHeader := !Contains(firstLine, "://");
    if hasHeader {
      rows := HeaderRows(Cells(lines[0]), LineCells(lines[1..]));
    } else {
      var cells := LineCells(lines);
      var maxLen := MaxLen(cells);
      rows := PadRows(cells, maxLen);
      assert rows == NoHeaderRows(lines);
    }
  }
}

=== FILE: dict.dfy ===
/**
 * Python's insertion-ordered `dict` with string keys, as a sequence of
 * key/value pairs with distinct keys. Assigning to a key that is already
 * present replaces its value where it stands; a new key goes at the end.
 * `dict(pairs)`, `dict(zip(...))` and a dict comprehension all assign the
 * pairs one after another, which is `FromPairs`.
 */
module Dict {
  import opened Wrappers

  type Dict<V> = seq<(string, V)>

  /** The keys of `d`, in order. */
  function Keys<V>(d: Dict<V>): (ks: seq<string>)
    ensures |ks| == |d|
    ensures forall i :: 0 <= i < |d| ==> ks[i] == d[i].0
  {
    if d == [] then [] else [d[0].0] + Keys(d[1..])
  }

  predicate UniqueKeys<V>(d: Dict<V>) {
    forall i, j :: 0 <= i < j < |d| ==> d[i].0 != d[j].0
  }

  predicate HasKey<V>(d: Dict<V>, k: string) {
    exists i :: 0 <= i < |d| && d[i].0 == k
  }

  /** The position of the first pair for `k`. */
  function IndexOf<V>(d: Dict<V>, k: string): (i: nat)
    requires HasKey(d, k)
    ensures i < |d| && d[i].0 == k
    ensures forall j :: 0 <= j < i ==> d[j].0 != k
  {
    if d[0].0 == k then 0
    else
      assert HasKey(d[1..], k) by {
        var i :| 0 <= i < |d| && d[i].0 == k;
        assert d[1..][i - 1].0 == k;
      }
      1 + IndexOf(d[1..], k)
  }

  /** `d.get(k)`: the value stored under `k`, or `None` when `k` is absent. */
  function Get<V>(d: Dict<V>, k: string): (r: Option<V>)
    ensures r.None? <==> !HasKey(d, k)
    ensures r.Some? ==> exists i :: 0 <= i < |d| && d[i] == (k, r.value)
  {
    if HasKey(d, k) then Some(d[IndexOf(d, k)].1) else None
  }

  /** `d[k] = v`: replace the value of a present key in place, or append. */
  function Put<V>(d: Dict<V>, k: string, v: V): (r: Dict<V>)
    ensures HasKey(d, k) ==> |r| == |d| && Keys(r) == Keys(d)
    ensures !HasKey(d, k) ==> r == d + [(k, v)]
  {
    if HasKey(d, k) then d[IndexOf(d, k) := (k, v)] else d + [(k, v)]
  }

  /** After `d[k] = v`, `k` holds `v` and every other key what it held. */
  lemma PutGet<V>(d: Dict<V>, k: string, v: V, k': string)
    ensures Get(Put(d, k, v), k') == if k' == k then Some(v) else Get(d, k')
  {
    var r := Put(d, k, v);
    if HasKey(d, k) {
      var i := IndexOf(d, k);
      if k' == k {
        assert IndexOf(r, k) == i;
      } else if HasKey(d, k') {
        var j := IndexOf(d, k');
        assert r[j].0 == k';
        assert IndexOf(r, k') == j;
      } else {
        assert !HasKey(r, k') by {
          forall j | 0 <= j < |r| ensures r[j].0 != k' {
            if j != i { assert r[j] == d[j]; }
          }
        }
      }
    } else {
      if k' == k {
        assert r[|d|].0 == k;
        assert IndexOf(r, k) == |d|;
      } else if HasKey(d, k') {
        var j := IndexOf(d, k');
        assert r[j].0 == k';
        assert IndexOf(r, k') == j;
      } else {
        assert !HasKey(r, k') by {
          forall j | 0 <= j < |r| ensures r[j].0 != k' {
            if j < |d| { assert r[j] == d[j]; }
          }
        }
      }
    }
  }

  /** Assignment keeps the keys distinct. */
  lemma PutUnique<V>(d: Dict<V>, k: string, v: V)
    requires UniqueKeys(d)
    ensures UniqueKeys(Put(d, k, v))
  {
    var r := Put(d, k, v);
    if !HasKey(d, k) {
      forall i, j | 0 <= i < j < |r| ensures r[i].0 != r[j].0 {
        if j == |d| { assert r[i] == d[i]; }
      }
    } else {
      forall i, j | 0 <= i < j < |r| ensures r[i].0 != r[j].0 {
        assert r[i].0 == Keys(r)[i] == Keys(d)[i] == d[i].0;
        assert r[j].0 == Keys(r)[j] == Keys(d)[j] == d[j].0;
      }
    }
  }

  /** With distinct keys, the pair at position `i` is what `Get` finds. */
  lemma GetUnique<V>(d: Dict<V>, i: nat)
    requires UniqueKeys(d) && i < |d|
    ensures Get(d, d[i].0) == Some(d[i].1)
  {
    assert HasKey(d, d[i].0);
    var j := IndexOf(d, d[i].0);
    assert j == i;
  }

  /** The value of the last pair for `k` in `ps`, or `None` when there is none. */
  function LastValue<V>(ps: seq<(string, V)>, k: string): Option<V> {
    if ps == [] then None
    else if ps[|ps| - 1].0 == k then Some(ps[|ps| - 1].1)
    else LastValue(ps[..|ps| - 1], k)
  }

  /** `dict(ps)`: assign every pair in turn. */
  function FromPairs<V>(ps: seq<(string, V)>): (d: Dict<V>)
    ensures UniqueKeys(d)
  {
    if ps == [] then []
    else
      PutUnique(FromPairs(ps[..|ps| - 1]), ps[|ps| - 1].0, ps[|ps| - 1].1);
      Put(FromPairs(ps[..|ps| - 1]), ps[|ps| - 1].0, ps[|ps| - 1].1)
  }

  /** Later pairs win: looking a key up in `dict(ps)` finds the value of
      the last pair for that key. */
  lemma {:induction false} FromPairsGet<V>(ps: seq<(string, V)>, k: string)
    ensures Get(FromPairs(ps), k) == LastValue(ps, k)
  {
    if ps != [] {
      FromPairsGet(ps[..|ps| - 1], k);
      PutGet(FromPairs(ps[..|ps| - 1]), ps[|ps| - 1].0, ps[|ps| - 1].1, k);
    }
  }

  /** Building a dict from pairs with distinct keys keeps the pairs exactly,
      in their order. */
  lemma {:induction false} FromPairsUnique<V>(ps: seq<(string, V)>)
    requires UniqueKeys(ps)
    ensures FromPairs(ps) == ps
  {
    if ps != [] {
      var init := ps[..|ps| - 1];
      assert UniqueKeys(init);
      FromPairsUnique(init);
      var k := ps[|ps| - 1].0;
      forall i | 0 <= i < |init| ensures init[i].0 != k {
        assert init[i] == ps[i];
      }
      assert ps == init + [ps[|ps| - 1]];
    }
  }

  /** Every key of `dict(ps)` comes from `ps`, and every key of `ps` is in it. */
  lemma {:induction false} FromPairsHasKey<V>(ps: seq<(string, V)>, k: string)
    ensures HasKey(FromPairs(ps), k) <==> exists i :: 0 <= i < |ps| && ps[i].0 == k
  {
    FromPairsGet(ps, k);
    LastValueSome(ps, k);
  }

  /** `LastValue` finds something exactly when some pair has the key. */
  lemma {:induction false} LastValueSome<V>(ps: seq<(string, V)>, k: string)
    ensures LastValue(ps, k).Some? <==> exists i :: 0 <= i < |ps| && ps[i].0 == k
  {
    if ps != [] && ps[|ps| - 1].0 != k {
      var init := ps[..|ps| - 1];
      LastValueSome(init, k);
      if exists i :: 0 <= i < |ps| && ps[i].0 == k {
        var i :| 0 <= i < |ps| && ps[i].0 == k;
        assert init[i].0 == k;
      }
    }
  }
}

=== FILE: line_filter.dfy ===
/**
 * The comment and blank line filter that runs before CSV parsing
 * (`read_csv_rows_from_path` and `read_csv_rows_from_url` share it): a line
 * is skipped when it starts with `#` after leading whitespace or when it is
 * whitespace only; every other line is kept as it is, in order.
 */
module LineFilter {
  import opened Text

  /** The line survives `line.lstrip().startswith("#") or not line.strip()`. */
  predicate IsRetained(line: string) {
    !StartsWith(LStrip(line), '#') && Strip(line) != ""
  }

  /** The first non-whitespace character of `line` sits at `i`. */
  predicate FirstNonSpaceAt(line: string, i: nat) {
    i < |line| && !IsSpace(line[i]) && forall t :: 0 <= t < i ==> IsSpace(line[t])
  }

  /** A line is kept exactly when it has a non-whitespace character and the
      first one is not `#`. */
  lemma RetainedIff(line: string)
    ensures IsRetained(line) <==>
      exists i: nat :: FirstNonSpaceAt(line, i) && line[i] != '#'
  {
    StripShape(line);
    var l := LStrip(line);
    var k := |line| - |l|;
    if l != [] {
      LStripFindsFirst(line);
      forall i: nat | FirstNonSpaceAt(line, i) ensures i == k {
        FirstNonSpaceUnique(line, i, k);
      }
      assert !AllSpace(line) by { assert !IsSpace(line[k]); }
    } else {
      assert k == |line|;
    }
  }

  /** A line that starts with a character other than whitespace and `#` is kept. */
  lemma RetainedFirst(line: string)
    requires line != [] && !IsSpace(line[0]) && line[0] != '#'
    ensures IsRetained(line)
  {
    RetainedIff(line);
    assert FirstNonSpaceAt(line, 0);
  }

  /** `lstrip` stops at the first non-whitespace character. */
  lemma LStripFindsFirst(line: string)
    requires LStrip(line) != []
    ensures FirstNonSpaceAt(line, |line| - |LStrip(line)|)
    ensures LStrip(line)[0] == line[|line| - |LStrip(line)|]
  {
  }

  lemma FirstNonSpaceUnique(line: string, i: nat, j: nat)
    requires FirstNonSpaceAt(line, i) && FirstNonSpaceAt(line, j)
    ensures i == j
  {
  }

  /** The retained lines, in their original order. */
  function FilterLines(lines: seq<string>): (kept: seq<string>)
    ensures lines == [] ==> kept == []
    ensures |kept| <= |lines|
    ensures forall j :: 0 <= j < |kept| ==> IsRetained(kept[j])
  {
    if lines == [] then []
    else
      var last := lines[|lines| - 1];
      FilterLines(lines[..|lines| - 1]) + (if IsRetained(last) then [last] else [])
  }

  /** Filtering works line by line: the kept lines of two blocks of text,
      one after the other, are the kept lines of each block in turn. */
  lemma {:induction false} FilterLinesAppend(a: seq<string>, b: seq<string>)
    ensures FilterLines(a + b) == FilterLines(a) + FilterLines(b)
  {
    if b != [] {
      var init := b[..|b| - 1];
      assert (a + b)[..|a + b| - 1] == a + init;
      FilterLinesAppend(a, init);
    } else {
      assert a + b == a;
    }
  }

  /** A comment or blank line anywhere among the lines changes nothing. */
  lemma FilterLinesSkipsDropped(before: seq<string>, dropped: string, after: seq<string>)
    requires !IsRetained(dropped)
    ensures FilterLines(before + [dropped] + after) == FilterLines(before + after)
  {
    FilterLinesAppend(before + [dropped], after);
    FilterLinesAppend(before, [dropped]);
    FilterLinesAppend(before, after);
  }

  /** A line is in the output exactly when it is in the input and retained. */
  lemma {:induction false} FilterLinesMembers(lines: seq<string>, x: string)
    ensures x in FilterLines(lines) <==> x in lines && IsRetained(x)
  {
    if lines != [] {
      var init, last := lines[..|lines| - 1], lines[|lines| - 1];
      FilterLinesMembers(init, x);
      assert lines == init + [last];
      assert x in lines <==> x in init || x == last;
      assert FilterLines(lines) == FilterLines(init) + (if IsRetained(last) then [last] else []);
    }
  }

  /** Lines that are all retained pass through unchanged. */
  lemma {:induction false} FilterLinesKeepsRetained(lines: seq<string>)
    requires forall j :: 0 <= j < |lines| ==> IsRetained(lines[j])
    ensures FilterLines(lines) == lines
  {
    if lines != [] {
      var init := lines[..|lines| - 1];
      forall j | 0 <= j < |init| ensures IsRetained(init[j]) {
        assert init[j] == lines[j];
      }
      FilterLinesKeepsRetained(init);
      assert IsRetained(lines[|lines| - 1]);
      assert lines == init + [lines[|lines| - 1]];
    }
  }

  /** Filtering twice is filtering once. */
  lemma FilterLinesIdempotent(lines: seq<string>)
    ensures FilterLines(FilterLines(lines)) == FilterLines(lines)
  {
    FilterLinesKeepsRetained(FilterLines(lines));
  }

  /** Filtering one more line appends it exactly when it is retained. */
  lemma FilterLinesStep(lines: seq<string>, i: nat)
    requires i < |lines|
    ensures FilterLines(lines[..i + 1])
         == FilterLines(lines[..i]) + (if IsRetained(lines[i]) then [lines[i]] else [])
  {
    assert lines[..i + 1][..i] == lines[..i];
  }

  /** The loop of lines 36-41 and 52-56: append every retained line. */
  method ReadLines(lines: seq<string>) returns (kept: seq<string>)
    ensures kept == FilterLines(lines)
  {
    kept := [];
    var i := 0;
    while i < |lines|
      invariant 0 <= i <= |lines|
      invariant kept == FilterLines(lines[..i])
    {
      var line := lines[i];
      FilterLinesStep(lines, i);
      if StartsWith(LStrip(line), '#') || Strip(line) == "" {
        i := i + 1;
        continue;
      }
      kept := kept + [line];
      i := i + 1;
    }
    assert lines[..i] == lines;
  }
}

=== FILE: normalize.dfy ===
/**
 * `slug_label_from_uri` and `normalize_vocab_entry`: one parsed row becomes
 * the canonical entry of its vocabulary, or nothing. Keys are matched after
 * lower-casing and trimming, values after trimming, and every semantic
 * field takes the first non-empty value among its candidate columns.
 */
module Normalize {
  import opened Wrappers
  import opened Text
  import opened Dict
  import opened CsvRows

  /** A canonical entry, with its fields in the order they are emitted. */
  datatype Entry =
    | UriLabel(uri: string, labelText: string, equivalentUri: Option<string>)
    | License(authorityUri: Option<string>, code: Option<string>, url: Option<string>, labelText: string)

  const LicensesName: string := "licenses"

  /** The candidate columns of each semantic field, in priority order. */
  const UriKeys: seq<string> := ["uri", "url", "col0"]
  const LabelKeys: seq<string> := ["label", "name", "col1"]
  const EquivalentKeys: seq<string> := ["equivalent_uri", "equivalent", "col2"]
  const AuthorityKeys: seq<string> := ["authority_uri", "authority", "col0"]
  const CodeKeys: seq<string> := ["code", "id", "col1"]
  const UrlKeys: seq<string> := ["url", "license_url", "col2"]

  /** The characters a derived label never holds. */
  const Separators: set<char> := {'/', '#', '_', '-'}

  /** The last `/`- or `#`-separated segment of the trimmed URI once
      trailing `/` and `#` are dropped (lines 30-32). */
  function LastSegment(uri: string): (w: string)
    ensures Free(w, {'/'}) && Free(w, {'#'})
  {
    var a := AfterLast(RStripAny(Strip(uri), {'/', '#'}), '/');
    AfterLastFree(a, '#', {'/'});
    AfterLast(a, '#')
  }

  /** `_` and `-` read as spaces (line 33). */
  function Spaced(w: string): string {
    ReplaceChar(ReplaceChar(w, '_', ' '), '-', ' ')
  }

  /** `slug_label_from_uri`: the last segment, spaced and trimmed; `""`
      for an empty URI. */
  function SlugLabelFromUri(uri: string): (slug: string)
    ensures uri == "" ==> slug == ""
  {
    if uri == "" then "" else Strip(Spaced(LastSegment(uri)))
  }

  /** Spacing a segment without `/` and `#` leaves none of the separators. */
  lemma SpacedFree(w: string)
    requires Free(w, {'/'}) && Free(w, {'#'})
    ensures Free(Spaced(w), Separators)
  {
    var r1 := ReplaceChar(w, '_', ' ');
    var r2 := ReplaceChar(r1, '-', ' ');
    forall i | 0 <= i < |r2| ensures r2[i] !in Separators {
      assert r1[i] == (if w[i] == '_' then ' ' else w[i]);
    }
  }

  /** A derived label holds no `/`, `#`, `_` or `-`. */
  lemma SlugLabelFree(uri: string)
    ensures Free(SlugLabelFromUri(uri), Separators)
  {
    if uri != "" {
      SpacedFree(LastSegment(uri));
      StripFree(Spaced(LastSegment(uri)), Separators);
    }
  }

  /** The last segment after a `/` or `#` separator is what follows it. */
  lemma AfterSeparators(base: string, sep: char, w: string)
    requires sep == '/' || sep == '#'
    requires Free(w, {'/'}) && Free(w, {'#'})
    ensures AfterLast(AfterLast(base + [sep] + w, '/'), '#') == w
  {
    if sep == '/' {
      AfterLastSeparator(base, '/', w);
      SegmentStartIs(w, '#', |w|, 0);
      assert AfterLast(w, '#') == w[0..];
    } else {
      AfterLastAppend(base, [sep] + w, '/');
      assert base + ([sep] + w) == base + [sep] + w;
      AfterLastSeparator(AfterLast(base, '/'), '#', w);
      assert AfterLast(base, '/') + ([sep] + w) == AfterLast(base, '/') + [sep] + w;
    }
  }

  /** The label derived from a URI whose last segment is `w` (after a `/`
      or `#`, and before any run of trailing `/` and `#`) is `w` with `_`
      and `-` read as spaces, trimmed. */
  lemma SlugOfLastSegment(base: string, sep: char, w: string, tail: string)
    requires sep == '/' || sep == '#'
    requires base == [] || !IsSpace(base[0])
    requires w != [] && Free(w, {'/'}) && Free(w, {'#'}) && !IsSpace(w[|w| - 1])
    requires forall i :: 0 <= i < |tail| ==> tail[i] == '/' || tail[i] == '#'
    ensures SlugLabelFromUri(base + [sep] + w + tail) == Strip(Spaced(w))
  {
    var body := base + [sep] + w;
    var uri := body + tail;
    assert uri[0] == if base == [] then sep else base[0];
    assert uri[|uri| - 1] == if tail == [] then w[|w| - 1] else tail[|tail| - 1];
    StripUnchanged(uri);
    assert body[|body| - 1] == w[|w| - 1];
    RStripAnyTail(body, tail, {'/', '#'});
    AfterSeparators(base, sep, w);
  }

  /** `"http://example.org/some_thing/"` gives `"some thing"`. The URI is
      passed in two named pieces, so the verifier reasons about it through
      `SlugOfLastSegment` instead of evaluating the literal. */
  lemma SlugExample(site: string, segment: string)
    requires site == "http://example.org" && segment == "some_thing"
    ensures SlugLabelFromUri(site + "/" + segment + "/") == "some thing"
  {
    SpacedExample(segment);
    var spaced := "some thing";
    assert spaced[0] == 's' && spaced[|spaced| - 1] == 'g';
    assert segment[|segment| - 1] == 'g';
    assert Free(segment, {'/'}) && Free(segment, {'#'});
    SlugOfSpacedSegment(site, segment, spaced);
  }

  /** A uri ending in `/w/`, whose spaced segment is already trimmed, has
      that spaced segment as its slug. */
  lemma SlugOfSpacedSegment(base: string, w: string, spaced: string)
    requires base == [] || !IsSpace(base[0])
    requires w != [] && Free(w, {'/'}) && Free(w, {'#'}) && !IsSpace(w[|w| - 1])
    requires Spaced(w) == spaced && spaced != [] && !IsSpace(spaced[0]) && !IsSpace(spaced[|spaced| - 1])
    ensures SlugLabelFromUri(base + "/" + w + "/") == spaced
  {
    SlugOfLastSegment(base, '/', w, "/");
    assert base + "/" + w + "/" == base + ['/'] + w + "/";
    StripUnchanged(spaced);
  }

  lemma SpacedExample(segment: string)
    requires segment == "some_thing"
    ensures Spaced(segment) == "some thing"
  {
    var r1 := ReplaceChar(segment, '_', ' ');
    assert r1 == "some thing";
    assert ReplaceChar(r1, '-', ' ') == r1;
  }

  /** A URI made only of separators yields an empty label: `"/"` gives `""`. */
  lemma SlugOfSlash()
    ensures SlugLabelFromUri("/") == ""
  {
    StripUnchanged("/");
    assert TrimEndAny("/", {'/', '#'}, 1) == 0 by {
      TrimEndAnyIs("/", {'/', '#'}, 1, 0);
    }
  }

  /** `k.lower().strip()`. */
  function NormKey(k: string): string {
    Strip(Lower(k))
  }

  /** `v.strip() if v else ""`: a missing cell reads as empty. */
  function NormValue(v: Option<string>): (r: string)
    ensures v.None? ==> r == ""
    ensures v.Some? ==> r == Strip(v.value)
  {
    match v
    case None => ""
    case Some(s) => if s == "" then "" else Strip(s)
  }

  /** The row's pairs with keys and values normalised, in row order. */
  function NormPairs(row: Row): (ps: seq<(string, string)>)
    ensures |ps| == |row|
    ensures forall i :: 0 <= i < |row| ==> ps[i] == (NormKey(row[i].0), NormValue(row[i].1))
  {
    seq(|row|, i requires 0 <= i < |row| => (NormKey(row[i].0), NormValue(row[i].1)))
  }

  /** Lines 81 and 101: `{k.lower().strip(): (v.strip() if v else "") ...}`. */
  function NormalizeKeys(row: Row): Dict<string> {
    FromPairs(NormPairs(row))
  }

  /** After normalisation a key holds the normalised value of the last
      column whose normalised name is that key. */
  lemma NormalizeKeysGet(row: Row, k: string)
    ensures Get(NormalizeKeys(row), k) == LastValue(NormPairs(row), k)
  {
    FromPairsGet(NormPairs(row), k);
  }

  /** The key is absent or holds the empty string. */
  predicate Blank(keys: Dict<string>, k: string) {
    match Get(keys, k)
    case None => true
    case Some(v) => v == ""
  }

  /** `keys.get(a) or keys.get(b) or keys.get(c, "")`: the value of the
      first candidate that holds a non-empty one, or `""` when none does. */
  function Resolve(keys: Dict<string>, candidates: seq<string>): string {
    if candidates == [] then ""
    else
      var rest := Resolve(keys, candidates[1..]);
      match Get(keys, candidates[0])
      case Some(v) => if v != "" then v else rest
      case None => rest
  }

  /** The resolved value is `""` exactly when every candidate is blank;
      otherwise it is the value of a candidate that every earlier candidate
      leaves blank. */
  lemma {:induction false} ResolveSpec(keys: Dict<string>, candidates: seq<string>)
    ensures var v := Resolve(keys, candidates);
      && (v == "" <==> forall i :: 0 <= i < |candidates| ==> Blank(keys, candidates[i]))
      && (v != "" ==> exists i :: 0 <= i < |candidates| && Get(keys, candidates[i]) == Some(v) &&
                         forall j :: 0 <= j < i ==> Blank(keys, candidates[j]))
  {
    if candidates != [] {
      var rest := candidates[1..];
      ResolveSpec(keys, rest);
      assert forall i :: 0 <= i < |rest| ==> rest[i] == candidates[i + 1];
      var v := Resolve(keys, candidates);
      if v != "" && v == Resolve(keys, rest) && Blank(keys, candidates[0]) {
        var i :| 0 <= i < |rest| && Get(keys, rest[i]) == Some(v) &&
                 forall j :: 0 <= j < i ==> Blank(keys, rest[j]);
        assert Get(keys, candidates[i + 1]) == Some(v);
        assert forall j :: 0 <= j < i + 1 ==> Blank(keys, candidates[j]);
      }
    }
  }

  /** The semantic field that `candidates` names, read off a row. */
  function Field(row: Row, candidates: seq<string>): string {
    Resolve(NormalizeKeys(row), candidates)
  }

  /** Lines 86-98. */
  function NormalizeLicense(row: Row): Option<Entry> {
    var authority := Field(row, AuthorityKeys);
    var code := Field(row, CodeKeys);
    var url := Field(row, UrlKeys);
    if url == "" && code == "" && authority == "" then None
    else
      var slug := SlugLabelFromUri(if authority != "" then authority else url);
      Some(License(
        if authority != "" then Some(authority) else None,
        if code != "" then Some(code) else None,
        if url != "" then Some(url) else None,
        if code != "" then code else if slug != "" then slug else "Unknown"))
  }

  /** Lines 101-113. */
  function NormalizeUriLabel(row: Row): Option<Entry> {
    var uri := Field(row, UriKeys);
    var labelField := Field(row, LabelKeys);
    var equiv := Field(row, EquivalentKeys);
    if uri == "" then None
    else Some(UriLabel(uri, if labelField != "" then labelField else SlugLabelFromUri(uri),
                       if equiv != "" then Some(equiv) else None))
  }

  /** `normalize_vocab_entry`: the licenses table has its own shape; every
      other name is read as a URI/label table. Every entry has a label; a
      licenses entry's label is never empty, and a URI/label entry's URI is
      never empty. */
  function NormalizeVocabEntry(name: string, row: Row): (r: Option<Entry>)
    ensures r.Some? ==> (r.value.License? <==> name == LicensesName)
    ensures r.Some? && r.value.License? ==> r.value.labelText != ""
    ensures r.Some? && r.value.UriLabel? ==> r.value.uri != ""
  {
    if name == LicensesName then NormalizeLicense(row) else NormalizeUriLabel(row)
  }

  /** With no two columns normalising to the same name, each column's
      normalised value is found under its normalised name. */
  lemma NormalizeKeysDistinct(row: Row, i: nat)
    requires forall a, b :: 0 <= a < b < |row| ==> NormKey(row[a].0) != NormKey(row[b].0)
    requires i < |row|
    ensures Get(NormalizeKeys(row), NormKey(row[i].0)) == Some(NormValue(row[i].1))
  {
    var ps := NormPairs(row);
    assert UniqueKeys(ps);
    FromPairsUnique(ps);
    GetUnique(ps, i);
  }

  /** A row holding only column `col0`, set to a trimmed uri, becomes the
      entry of that uri, labelled by its slug, with no equivalent uri. */
  lemma BareUriRow(name: string, u: string)
    requires name != LicensesName
    requires u != [] && !IsSpace(u[0]) && !IsSpace(u[|u| - 1])
    ensures NormalizeVocabEntry(name, [(ColName(0), Some(u))])
         == Some(UriLabel(u, SlugLabelFromUri(u), None))
  {
    FirstColNames();
    BareUriRowAt(name, ColName(0), u);
  }

  /** `BareUriRow` with the column name `k` given as a parameter: written
      as a literal inside the row, the proof would unfold `Lower` and
      `Strip` on that text throughout the normalisation. */
  lemma BareUriRowAt(name: string, k: string, u: string)
    requires name != LicensesName
    requires k == "col0"
    requires u != [] && !IsSpace(u[0]) && !IsSpace(u[|u| - 1])
    ensures NormalizeVocabEntry(name, [(k, Some(u))])
         == Some(UriLabel(u, SlugLabelFromUri(u), None))
  {
    var row: Row := [(k, Some(u))];
    LowerUnchanged(k);
    StripUnchanged(k);
    StripUnchanged(u);
    var ps := [(k, u)];
    assert NormPairs(row) == ps;
    FromPairsUnique(ps);
    var keys := NormalizeKeys(row);
    assert keys == ps;
    BareAbsentKeys(keys, k, u);
    assert Field(row, UriKeys) == u;
    assert Field(row, LabelKeys) == "";
    assert Field(row, EquivalentKeys) == "";
  }

  /** In the normalised keys of a `col0`-only row, the uri resolves to the
      cell and no label or equivalent candidate is present. The key is a
      parameter fixed to `col0`, as in `BareUriRowAt`. */
  lemma BareAbsentKeys(keys: Dict<string>, k: string, u: string)
    requires k == "col0" && keys == [(k, u)] && u != ""
    ensures Resolve(keys, UriKeys) == u
    ensures Resolve(keys, LabelKeys) == ""
    ensures Resolve(keys, EquivalentKeys) == ""
  {
    assert !HasKey(keys, "uri") && !HasKey(keys, "url");
    GetUnique(keys, 0);
    assert Resolve(keys, ["col0"]) == u;
    assert "col1"[3] != k[3] && "col2"[3] != k[3];
    assert !HasKey(keys, "label") && !HasKey(keys, "name") && !HasKey(keys, "col1");
    assert !HasKey(keys, "equivalent_uri") && !HasKey(keys, "equivalent") && !HasKey(keys, "col2");
    assert Resolve(keys, []) == "";
    assert Resolve(keys, ["col1"]) == "";
    assert Resolve(keys, ["col2"]) == "";
    assert Resolve(keys, ["name", "col1"]) == "";
    assert Resolve(keys, ["equivalent", "col2"]) == "";
  }

  /** In the normalised keys of a `uri`/`label` row, the other candidate
      names of the label and of the equivalent uri are missing. */
  lemma AbsentKeys(keys: Dict<string>, u: string, l: string)
    requires keys == [("uri", u), ("label", l)]
    ensures Resolve(keys, LabelKeys[1..]) == ""
    ensures Resolve(keys, EquivalentKeys) == ""
  {
    assert |"name"| != |"uri"| && |"name"| != |"label"|;
    assert !HasKey(keys, "name");
    assert !HasKey(keys, "col1");
    assert !HasKey(keys, "col2");
    assert !HasKey(keys, "equivalent");
    assert !HasKey(keys, "equivalent_uri");
    assert Resolve(keys, []) == "";
    assert Resolve(keys, ["col1"]) == "";
    assert Resolve(keys, ["col2"]) == "";
    assert Resolve(keys, ["equivalent", "col2"]) == "";
  }

  /** A row with a `uri` cell and a `label` cell, both already trimmed,
      becomes the entry of that uri with the label, or the slug when the
      label is empty, and no equivalent uri. */
  lemma UriLabelRow(name: string, u: string, l: string)
    requires name != LicensesName
    requires u != [] && !IsSpace(u[0]) && !IsSpace(u[|u| - 1])
    requires l == [] || (!IsSpace(l[0]) && !IsSpace(l[|l| - 1]))
    ensures NormalizeVocabEntry(name, [("uri", Some(u)), ("label", Some(l))])
         == Some(UriLabel(u, if l != "" then l else SlugLabelFromUri(u), None))
  {
    var row: Row := [("uri", Some(u)), ("label", Some(l))];
    LowerUnchanged("uri");
    StripUnchanged("uri");
    LowerUnchanged("label");
    StripUnchanged("label");
    StripUnchanged(u);
    if l != "" {
      StripUnchanged(l);
    }
    var ps := [("uri", u), ("label", l)];
    assert NormPairs(row) == ps;
    FromPairsUnique(ps);
    var keys := NormalizeKeys(row);
    assert keys == ps;
    GetUnique(keys, 0);
    GetUnique(keys, 1);
    assert Field(row, UriKeys) == u;
    AbsentKeys(keys, u, l);
    assert Field(row, LabelKeys) == l;
    assert Field(row, EquivalentKeys) == "";
  }

  /** Lines 101-113: a URI/label table yields no entry exactly when every
      URI candidate is blank; otherwise the entry carries the resolved URI,
      the explicit label or else the label derived from the URI, and an
      equivalent URI exactly when one is given. */
  lemma UriLabelEntry(name: string, row: Row)
    requires name != LicensesName
    ensures var keys := NormalizeKeys(row);
      NormalizeVocabEntry(name, row).None? <==>
        forall i :: 0 <= i < |UriKeys| ==> Blank(keys, UriKeys[i])
    ensures var r := NormalizeVocabEntry(name, row);
      r.Some? ==> (
        && r.value.UriLabel?
        && r.value.uri == Field(row, UriKeys)
        && (Field(row, LabelKeys) != "" ==> r.value.labelText == Field(row, LabelKeys))
        && (Field(row, LabelKeys) == "" ==> r.value.labelText == SlugLabelFromUri(r.value.uri))
        && (r.value.equivalentUri.Some? <==> Field(row, EquivalentKeys) != "")
        && (r.value.equivalentUri.Some? ==> r.value.equivalentUri.value == Field(row, EquivalentKeys)))
  {
    ResolveSpec(NormalizeKeys(row), UriKeys);
  }

  /** A derived URI/label label, used when no explicit label is given,
      holds no `/`, `#`, `_` or `-`. */
  lemma UriLabelDerivedLabel(name: string, row: Row)
    requires name != LicensesName
    requires Field(row, LabelKeys) == ""
    ensures var r := NormalizeVocabEntry(name, row);
      r.Some? ==> Free(r.value.labelText, Separators)
  {
    SlugLabelFree(Field(row, UriKeys));
  }

  /** Lines 86-98: a licenses table yields no entry exactly when every
      authority, code and url candidate is blank; each optional field is
      present exactly when its resolved value is non-empty, and the label is
      the code, else the label derived from the authority or else the url,
      else `"Unknown"`. */
  lemma LicenseEntry(row: Row)
    ensures var keys := NormalizeKeys(row);
      NormalizeVocabEntry(LicensesName, row).None? <==>
        (forall i :: 0 <= i < |AuthorityKeys| ==> Blank(keys, AuthorityKeys[i]))
        && (forall i :: 0 <= i < |CodeKeys| ==> Blank(keys, CodeKeys[i]))
        && (forall i :: 0 <= i < |UrlKeys| ==> Blank(keys, UrlKeys[i]))
    ensures var r := NormalizeVocabEntry(LicensesName, row);
      var authority := Field(row, AuthorityKeys);
      var code := Field(row, CodeKeys);
      var url := Field(row, UrlKeys);
      r.Some? ==> (
        && r.value.License?
        && (r.value.authorityUri.Some? <==> authority != "")
        && (r.value.authorityUri.Some? ==> r.value.authorityUri.value == authority)
        && (r.value.code.Some? <==> code != "")
        && (r.value.code.Some? ==> r.value.code.value == code)
        && (r.value.url.Some? <==> url != "")
        && (r.value.url.Some? ==> r.value.url.value == url)
        && (code != "" ==> r.value.labelText == code)
        && (code == "" ==> var slug := SlugLabelFromUri(if authority != "" then authority else url);
              r.value.labelText == if slug != "" then slug else "Unknown"))
  {
    var keys := NormalizeKeys(row);
    ResolveSpec(keys, AuthorityKeys);
    ResolveSpec(keys, CodeKeys);
    ResolveSpec(keys, UrlKeys);
  }
}

=== FILE: text.dfy ===
/**
 * The few Python string operations the converter relies on, over `string`
 * (a sequence of code points): `str.isspace`, `strip`, `lstrip`,
 * `rstrip(chars)`, `split(c)[-1]`, `split(c)`, `replace`, `lower`, `in`
 * and `startswith`, and the decimal rendering used by f-strings.
 */
module Text {

  /** Python's `str.isspace()` for one character: the code points Python
      treats as whitespace. */
  predicate IsSpace(c: char) {
    var n := c as int;
    (0x09 <= n <= 0x0D) || (0x1C <= n <= 0x20) || n == 0x85 || n == 0xA0
    || n == 0x1680 || (0x2000 <= n <= 0x200A) || n == 0x2028 || n == 0x2029
    || n == 0x202F || n == 0x205F || n == 0x3000
  }

  predicate AllSpace(s: string) {
    forall i :: 0 <= i < |s| ==> IsSpace(s[i])
  }

  /** No character of `s` is one of `cs`. */
  predicate Free(s: string, cs: set<char>) {
    forall i :: 0 <= i < |s| ==> s[i] !in cs
  }

  /** Every character of `s` at positions `lo` up to `hi` is whitespace. */
  predicate SpaceBetween(s: string, lo: int, hi: int) {
    forall i :: lo <= i < hi && 0 <= i < |s| ==> IsSpace(s[i])
  }

  /** The position of the first non-whitespace character of `s` at or after
      `i`, or `|s|` when there is none. */
  function SkipSpace(s: string, i: nat): (k: nat)
    requires i <= |s|
    ensures i <= k <= |s|
    ensures SpaceBetween(s, i, k)
    ensures k < |s| ==> !IsSpace(s[k])
    decreases |s| - i
  {
    if i < |s| && IsSpace(s[i]) then SkipSpace(s, i + 1) else i
  }

  /** The end of `s[lo..j]` once its trailing whitespace is dropped. */
  function TrimEnd(s: string, lo: nat, j: nat): (e: nat)
    requires lo <= j <= |s|
    ensures lo <= e <= j
    ensures SpaceBetween(s, e, j)
    ensures e > lo ==> !IsSpace(s[e - 1])
    decreases j
  {
    if j > lo && IsSpace(s[j - 1]) then TrimEnd(s, lo, j - 1) else j
  }

  /** `s.lstrip()`: the suffix left after dropping leading whitespace. */
  function LStrip(s: string): (r: string)
    ensures |r| <= |s| && r == s[|s| - |r|..]
    ensures SpaceBetween(s, 0, |s| - |r|)
    ensures r != [] ==> !IsSpace(r[0])
  {
    s[SkipSpace(s, 0)..]
  }

  /** `s.rstrip(chars)`: the prefix left after dropping trailing characters of `cs`. */
  function RStripAny(s: string, cs: set<char>): (r: string)
    ensures |r| <= |s| && r == s[..|r|]
    ensures forall i :: |r| <= i < |s| ==> s[i] in cs
    ensures r != [] ==> r[|r| - 1] !in cs
  {
    s[..TrimEndAny(s, cs, |s|)]
  }

  /** The end of `s[..j]` once its trailing characters of `cs` are dropped. */
  function TrimEndAny(s: string, cs: set<char>, j: nat): (e: nat)
    requires j <= |s|
    ensures e <= j
    ensures forall i :: e <= i < j ==> s[i] in cs
    ensures e > 0 ==> s[e - 1] !in cs
    decreases j
  {
    if j > 0 && s[j - 1] in cs then TrimEndAny(s, cs, j - 1) else j
  }

  /** `TrimEndAny` stops at the last character of `s[..j]` not in `cs`. */
  lemma {:induction false} TrimEndAnyIs(s: string, cs: set<char>, j: nat, e: nat)
    requires e <= j <= |s|
    requires forall i :: e <= i < j ==> s[i] in cs
    requires e > 0 ==> s[e - 1] !in cs
    ensures TrimEndAny(s, cs, j) == e
    decreases j
  {
    if j > e {
      TrimEndAnyIs(s, cs, j - 1, e);
    }
  }

  /** `rstrip(cs)` drops exactly a tail made of `cs` from a string whose
      body does not end in `cs`. */
  lemma RStripAnyTail(body: string, tail: string, cs: set<char>)
    requires body != [] && body[|body| - 1] !in cs
    requires forall i :: 0 <= i < |tail| ==> tail[i] in cs
    ensures RStripAny(body + tail, cs) == body
  {
    var s := body + tail;
    forall i | |body| <= i < |s| ensures s[i] in cs {
      assert s[i] == tail[i - |body|];
    }
    assert s[|body| - 1] == body[|body| - 1];
    TrimEndAnyIs(s, cs, |s|, |body|);
    assert s[..|body|] == body;
  }

  /** `s.strip()`: `s` without leading and trailing whitespace. The result is
      the slice of `s` that starts at the first non-whitespace character,
      everything cut off is whitespace, and it is empty exactly when `s` is
      all whitespace. */
  function Strip(s: string): string {
    s[SkipSpace(s, 0)..TrimEnd(s, SkipSpace(s, 0), |s|)]
  }

  lemma StripShape(s: string)
    ensures var r, k := Strip(s), |s| - |LStrip(s)|;
      && k + |r| <= |s| && r == s[k..k + |r|]
      && SpaceBetween(s, 0, k) && SpaceBetween(s, k + |r|, |s|)
      && (r == [] <==> AllSpace(s))
      && (r != [] ==> !IsSpace(r[0]) && !IsSpace(r[|r| - 1]))
  {
    var k := SkipSpace(s, 0);
    var e := TrimEnd(s, k, |s|);
    assert k < |s| ==> k < e;
    assert Strip(s) == s[k..e];
  }

  /** Stripping keeps a string free of any set of characters. */
  lemma StripFree(s: string, cs: set<char>)
    requires Free(s, cs)
    ensures Free(Strip(s), cs)
  {
    StripShape(s);
    var k := |s| - |LStrip(s)|;
    var r := Strip(s);
    forall i | 0 <= i < |r| ensures r[i] !in cs {
      assert r[i] == s[k + i];
    }
  }

  /** `s.split(c)[-1]`: the longest suffix of `s` that does not contain `c`.
      It is all of `s` when `c` does not occur, and otherwise it starts just
      after the last `c`. */
  function AfterLast(s: string, c: char): string {
    s[SegmentStart(s, c, |s|)..]
  }

  lemma AfterLastShape(s: string, c: char)
    ensures var r := AfterLast(s, c);
      |r| <= |s| && r == s[|s| - |r|..] && Free(r, {c}) && (|r| < |s| ==> s[|s| - |r| - 1] == c)
  {
    var k := SegmentStart(s, c, |s|);
    assert AfterLast(s, c) == s[k..];
  }

  /** The last segment keeps any absence the whole string has. */
  lemma AfterLastFree(s: string, c: char, cs: set<char>)
    requires Free(s, cs)
    ensures Free(AfterLast(s, c), cs)
  {
    var k := SegmentStart(s, c, |s|);
    var r := s[k..];
    assert AfterLast(s, c) == r;
    forall i | 0 <= i < |r| ensures r[i] !in cs {
      assert r[i] == s[k + i];
    }
  }

  /** A string with no whitespace at either end is its own `strip()`. */
  lemma StripUnchanged(s: string)
    requires s != [] && !IsSpace(s[0]) && !IsSpace(s[|s| - 1])
    ensures Strip(s) == s
  {
    assert SkipSpace(s, 0) == 0;
    assert TrimEnd(s, 0, |s|) == |s|;
  }

  /** `SegmentStart` is the start of the last run without `c`. */
  lemma {:induction false} SegmentStartIs(s: string, c: char, j: nat, k: nat)
    requires k <= j <= |s|
    requires forall i :: k <= i < j ==> s[i] != c
    requires k > 0 ==> s[k - 1] == c
    ensures SegmentStart(s, c, j) == k
    decreases j
  {
    if j > k {
      SegmentStartIs(s, c, j - 1, k);
    }
  }

  /** After `p + [c] + w`, with no `c` in `w`, the last segment is `w`. */
  lemma AfterLastSeparator(p: string, c: char, w: string)
    requires Free(w, {c})
    ensures AfterLast(p + [c] + w, c) == w
  {
    var s := p + [c] + w;
    SegmentStartIs(s, c, |s|, |p| + 1);
    assert s[|p| + 1..] == w;
  }

  /** Appending text without `c` extends the last segment. */
  lemma AfterLastAppend(p: string, t: string, c: char)
    requires Free(t, {c})
    ensures AfterLast(p + t, c) == AfterLast(p, c) + t
  {
    var s := p + t;
    var k := SegmentStart(p, c, |p|);
    forall i | k <= i < |s| ensures s[i] != c {
      if i < |p| { assert s[i] == p[i]; } else { assert s[i] == t[i - |p|]; }
    }
    SegmentStartIs(s, c, |s|, k);
    assert s[k..] == p[k..] + t;
  }

  /** Where the run of non-`c` characters that ends at `j` begins. */
  function SegmentStart(s: string, c: char, j: nat): (k: nat)
    requires j <= |s|
    ensures k <= j
    ensures forall i :: k <= i < j ==> s[i] != c
    ensures k > 0 ==> s[k - 1] == c
    decreases j
  {
    if j > 0 && s[j - 1] != c then SegmentStart(s, c, j - 1) else j
  }

  /** `s.replace(a, b)` for single characters. */
  function ReplaceChar(s: string, a: char, b: char): (r: string)
    ensures |r| == |s|
    ensures forall i :: 0 <= i < |s| ==> r[i] == (if s[i] == a then b else s[i])
  {
    seq(|s|, i requires 0 <= i < |s| => if s[i] == a then b else s[i])
  }

  /** `c.lower()` on the ASCII letters. */
  function LowerChar(c: char): char {
    if 'A' <= c <= 'Z' then (c as int + 32) as char else c
  }

  /** `s.lower()`, on ASCII letters only. */
  function Lower(s: string): (r: string)
    ensures |r| == |s|
    ensures forall i :: 0 <= i < |s| ==> r[i] == LowerChar(s[i])
  {
    seq(|s|, i requires 0 <= i < |s| => LowerChar(s[i]))
  }

  /** `sub in s` for strings. */
  predicate Contains(s: string, sub: string) {
    exists i :: 0 <= i <= |s| - |sub| && OccursAt(s, sub, i)
  }

  /** `sub` occurs in `s` starting at index `i`. */
  predicate OccursAt(s: string, sub: string, i: nat)
    requires i + |sub| <= |s|
  {
    s[i..i + |sub|] == sub
  }

  /** Stripping does not change whether `s` contains a non-empty `sub`
      that has no whitespace in it. */
  lemma ContainsUnderStrip(s: string, sub: string)
    requires sub != [] && forall i :: 0 <= i < |sub| ==> !IsSpace(sub[i])
    ensures Contains(Strip(s), sub) <==> Contains(s, sub)
  {
    StripShape(s);
    var r := Strip(s);
    var k := |s| - |LStrip(s)|;
    ContainsInTrimmedSlice(s, k, |r|, sub);
  }

  /** The same for any slice that only whitespace surrounds. */
  lemma ContainsInTrimmedSlice(s: string, k: nat, n: nat, sub: string)
    requires k + n <= |s| && SpaceBetween(s, 0, k) && SpaceBetween(s, k + n, |s|)
    requires sub != [] && forall t :: 0 <= t < |sub| ==> !IsSpace(sub[t])
    ensures Contains(s[k..k + n], sub) <==> Contains(s, sub)
  {
    var r := s[k..k + n];
    if Contains(r, sub) {
      var i :| 0 <= i <= |r| - |sub| && OccursAt(r, sub, i);
      OccursInSlice(s, k, n, sub, i);
      assert 0 <= k + i <= |s| - |sub| && OccursAt(s, sub, k + i);
    }
    if Contains(s, sub) {
      var i :| 0 <= i <= |s| - |sub| && OccursAt(s, sub, i);
      OccursInsideStrip(s, k, n, sub, i);
      OccursInSlice(s, k, n, sub, i - k);
      assert 0 <= i - k <= |r| - |sub| && OccursAt(r, sub, i - k);
    }
  }

  /** An occurrence in the slice `s[k..k + n]` is one in `s`, and back. */
  lemma OccursInSlice(s: string, k: nat, n: nat, sub: string, i: nat)
    requires k + n <= |s| && i + |sub| <= n
    ensures OccursAt(s[k..k + n], sub, i) <==> OccursAt(s, sub, k + i)
  {
    var a, b := s[k..k + n][i..i + |sub|], s[k + i..k + i + |sub|];
    forall t | 0 <= t < |sub| ensures a[t] == b[t] {
      assert a[t] == s[k + i + t];
    }
    assert a == b;
  }

  /** An occurrence of a whitespace-free `sub` lies inside the stripped part. */
  lemma OccursInsideStrip(s: string, k: nat, n: nat, sub: string, i: nat)
    requires k + n <= |s| && SpaceBetween(s, 0, k) && SpaceBetween(s, k + n, |s|)
    requires sub != [] && forall t :: 0 <= t < |sub| ==> !IsSpace(sub[t])
    requires i + |sub| <= |s| && OccursAt(s, sub, i)
    ensures k <= i && i + |sub| <= k + n
  {
    var e := i + |sub| - 1;
    assert s[i] == sub[0] && s[e] == sub[|sub| - 1];
  }

  /** Text that lacks the first character of `sub` does not contain it. */
  lemma NotContainsWithout(s: string, sub: string)
    requires sub != [] && Free(s, {sub[0]})
    ensures !Contains(s, sub)
  {
    forall i | 0 <= i <= |s| - |sub| ensures !OccursAt(s, sub, i) {
      assert s[i..i + |sub|][0] == s[i];
    }
  }

  /** Text without upper-case ASCII letters is its own `lower()`. */
  lemma LowerUnchanged(s: string)
    requires forall i :: 0 <= i < |s| ==> !('A' <= s[i] <= 'Z')
    ensures Lower(s) == s
  {
  }

  /** `s.startswith(c)` for a one-character prefix. */
  predicate StartsWith(s: string, c: char) {
    s != [] && s[0] == c
  }

  /** `sep.join(parts)`. */
  function Join(parts: seq<string>, sep: char): string
    requires |parts| >= 1
  {
    if |parts| == 1 then parts[0] else parts[0] + [sep] + Join(parts[1..], sep)
  }

  /** `s.split(sep)`: the pieces between occurrences of `sep`; there is
      always at least one, and none contains `sep`. */
  function Split(s: string, sep: char): (r: seq<string>)
    ensures |r| >= 1
    ensures forall i :: 0 <= i < |r| ==> sep !in r[i]
  {
    if s == [] then [[]]
    else
      var rest := Split(s[1..], sep);
      if s[0] == sep then [[]] + rest
      else [[s[0]] + rest[0]] + rest[1..]
  }

  /** Joining the pieces of a split gives back the string. */
  lemma {:induction false} JoinSplit(s: string, sep: char)
    ensures Join(Split(s, sep), sep) == s
  {
    if s != [] {
      var rest := Split(s[1..], sep);
      JoinSplit(s[1..], sep);
      if s[0] == sep {
        assert Split(s, sep)[1..] == rest;
      } else {
        var r := Split(s, sep);
        if |rest| == 1 {
          assert r == [[s[0]] + rest[0]];
        } else {
          assert r[1..] == rest[1..];
          assert Join(rest, sep) == rest[0] + [sep] + Join(rest[1..], sep);
        }
      }
    }
  }

  /** Splitting a join of separator-free pieces gives back the pieces. */
  lemma {:induction false} SplitJoin(parts: seq<string>, sep: char)
    requires |parts| >= 1
    requires forall i :: 0 <= i < |parts| ==> sep !in parts[i]
    ensures Split(Join(parts, sep), sep) == parts
  {
    if |parts| == 1 {
      SplitFree(parts[0], sep);
    } else {
      SplitJoin(parts[1..], sep);
      SplitPrefix(parts[0], Join(parts[1..], sep), sep);
      assert parts == [parts[0]] + parts[1..];
    }
  }

  /** A separator-free string splits into itself. */
  lemma {:induction false} SplitFree(s: string, sep: char)
    requires sep !in s
    ensures Split(s, sep) == [s]
  {
    if s != [] {
      SplitFree(s[1..], sep);
      assert [s[0]] + s[1..] == s;
    }
  }

  /** Splitting `p + [sep] + t` with a separator-free `p` yields `p` first. */
  lemma {:induction false} SplitPrefix(p: string, t: string, sep: char)
    requires sep !in p
    ensures Split(p + [sep] + t, sep) == [p] + Split(t, sep)
  {
    if p == [] {
      assert ([sep] + t)[1..] == t;
    } else {
      assert (p + [sep] + t)[1..] == p[1..] + [sep] + t;
      SplitPrefix(p[1..], t, sep);
      assert [p[0]] + p[1..] == p;
    }
  }

  /** The decimal digit `d` as a character. */
  function DigitChar(d: nat): (c: char)
    requires d < 10
    ensures '0' <= c <= '9'
    ensures c == "0123456789"[d]
  {
    (48 + d) as char
  }

  /** `str(n)` for a natural number: its decimal digits, most significant first. */
  function NatToString(n: nat): (r: string)
    ensures |r| >= 1
    ensures n < 10 <==> |r| == 1
    ensures r[|r| - 1] == DigitChar(n % 10)
  {
    if n < 10 then [DigitChar(n)] else NatToString(n / 10) + [DigitChar(n % 10)]
  }

  /** Distinct numbers are written differently. */
  lemma {:induction false} NatToStringInjective(a: nat, b: nat)
    requires NatToString(a) == NatToString(b)
    ensures a == b
  {
    var sa, sb := NatToString(a), NatToString(b);
    assert DigitChar(a % 10) == DigitChar(b % 10);
    if a >= 10 {
      assert sa[..|sa| - 1] == NatToString(a / 10);
      assert sb[..|sb| - 1] == NatToString(b / 10);
      NatToStringInjective(a / 10, b / 10);
    }
  }
}

=== FILE: wrappers.dfy ===
/** Optional values: Python's `None` versus a present value. */
module Wrappers {
  datatype Option<+T> = None | Some(value: T)
}
